=== FILE: README.md ===
# WhatStat core in Dafny

WhatStat reads an exported WhatsApp group chat and computes statistics
for each participant and for the group as a whole. This project models
the core of that pipeline and proves properties about it.

- Each transcript line is classified. It is either a message header
  (`[date] sender: body`), a continuation of the previous message, or
  noise.
- A sender label that looks like a phone number is normalised. It is
  then looked up in a map from phone numbers to names.
- Messages are grouped per user, in order of each user's first
  appearance.
- Every user's messages, and the whole chat's messages, are reduced to
  the same statistics:
  - the first and last timestamps;
  - line, message and character totals;
  - emoji usage;
  - media-sharing counts;
  - per-day activity, the most active days and the longest streak of
    consecutive days.

## Modules

| module | file | what it models |
|---|---|---|
| `Common` | common.dfy | `Option`, `Result`, and the faults the pipeline can raise |
| `Strings` | strings.dfy | `'\n'.join`, `in` on strings, and splitting on a separator |
| `Ordering` | ordering.dfy | Python's tuple ordering, `sorted`, `reversed`, and `top` |
| `Tallies` | tallies.dfy | insertion-ordered counting dicts (`defaultdict(int)`) and `str_to_dict` |
| `AdjacentDates` | adjacent_dates.dfy | `group_adjacent_dates` and its meaning as maximal runs of consecutive days |
| `Users` | users.dfy | `User`: the phone-number pattern and name resolution |
| `Headers` | headers.dfy | the header pattern `.*?\[(.+?)\] (.+?): (.+)` as an explicit leftmost-shortest search |
| `Messages` | messages.dfy | `Message`: `from_line`, `is_line_continuation`, `text`, `num_lines` and `num_characters` |
| `ChatParser` | chat_parser.dfy | `parse_chat`: a line-by-line state machine and its reference definition |
| `Stats` | stats.dfy | `start`, `end`, the totals, `_compute_emojis` and `_compute_sharing` |
| `Activity` | activity.dfy | `_compute_activity` |
| `Report` | report.dfy | `_user_stats` and `compute_stats`, plus the whole pipeline from lines to report |

### Representation choices

- **Dicts.** Python dicts keep insertion order. They are modelled as
  association lists `seq<(K, V)>` with no duplicate keys. `Lookup`
  returns the count stored for a key, or 0 when the key is absent.
- **Failures.** Where the program would raise, the model returns
  `Err(fault)` instead:
  - a timestamp that does not parse gives `MalformedTimestamp`;
  - a continuation line before any header gives `NoPreviousMessage`,
    where the program fails with `AttributeError` on `None`;
  - `min`, `max` or `group_adjacent_dates` on an empty list gives
    `EmptyMessageList`.
- **Timestamps.** A timestamp is a `Stamp(day, time)`: a day ordinal
  and a time of day. It is ordered lexicographically.
- **Date parsing.** Parsing with `pendulum.from_format` is a parameter
  `parseDate: string -> Option<Stamp>`.
- **Users.** Users compare by name only, as `User.__eq__` and
  `User.__hash__` do (`Users.SameUser`). Grouping looks up entries with
  that equality (`ChatParser.IndexOf`). A group therefore keeps the `User`
  value of the first message with that name.

### Behaviours kept as written

Two behaviours of the program are kept and documented by lemmas.

- **Unrecognised video marker.** The marker for shared videos is spelled
  `video omitter`. So a WhatsApp "video omitted" line is never counted
  as a share (`Stats.VideoOmittedUncounted`).
- **Streak lengths.** `group_adjacent_dates` records a closed streak as
  `end - start` but the final one as `end - start + 1`. So `[1, 2, 4]`
  gives two streaks of length 1 (`AdjacentDates.ShortRunExample`). The
  longest streak is also computed over days in order of first
  appearance, not over sorted days. An out-of-order chat therefore
  splits streaks (`AdjacentDates.UnsortedExample`).

## Model

| member | source | states |
|---|---|---|
| Users.Resolve | message.py:12-21 | A resolved user flagged as a number has a name starting with `+` that is not a key of the number map. Any other resolved name is either the raw label or a value of the map. |
| Users.MatchWellSeparated | message.py:10 | For any number of non-empty digit groups separated by single characters that are neither digits nor newlines, followed by text that does not start with a digit, the greedy backtracking engine captures exactly those groups. |
| Users.MatchGroupsSound | message.py:10 | Every match the engine reports is a way of matching the pattern: non-empty digit groups that spell a prefix of the text, separated by single non-newline characters. |
| Users.MatchGroupsComplete | message.py:10 | Whenever some choice of digit groups matches the pattern at the start of the text, the engine's backtracking finds a match. |
| Users.MatchPhoneShape | message.py:10-15 | The phone pattern matches a label exactly when the label is a non-newline character, a `+`, then six digit groups separated by single non-newline characters. The reported groups are such a split, with the `+` on the first group. |
| Users.ResolveNotPhoneShaped | message.py:15-16 | A label the phone pattern does not match is kept verbatim and is not a number. |
| Users.ShortLabelKept | message.py:10-16 | A label shorter than 13 characters cannot match the phone pattern, so it is kept verbatim. For example, `x+1 2 3` is a plain name. |
| Users.ResolvePhoneLabel | message.py:12-21 | A label of the form `?+d…` with six well-separated digit groups becomes the groups joined by spaces. That key resolves to the mapped name when the map has it, and otherwise to an unknown-number user. |
| Users.ResolveNonPhone | message.py:15-16 | A label whose second character is not `+` is kept verbatim and is not a number. |
| Users.NumberAndPlainLabelCoincide | message.py:29-33 | An unknown-number user and a plainly named user can be equal as users, because equality looks only at the name. |
| Users.UnknownNumberExample | message.py:12-21 | `x+1 2 3 4 5 6` with an empty map resolves to the unknown number `+1 2 3 4 5 6`. |
| Headers.ParseHeader | message.py:37-39 | A matched header has non-empty, newline-free date, sender and body captures. |
| Headers.FindSplitLeast | message.py:37-39 | The chosen split is least among all splits the pattern admits, in the order `[`, then `]`, then `: `. This is the leftmost lazy match. |
| Headers.HeaderDecomposition | message.py:37-39 | A matched line is exactly a newline-free prefix, then `[date] sender: body`, then either nothing or a newline and the rest. |
| Headers.HeaderHasBracket | message.py:40 | A header line contains `[`, so it can never also be a continuation line. |
| Messages.FromLine | message.py:55-64 | A non-header line yields no message. A header whose date does not parse is a `MalformedTimestamp` fault. Otherwise the message holds the line as its only line, the body capture, the parsed timestamp and the resolved sender. |
| Messages.Classify | message.py:66-68 | A line is a header exactly when the header pattern matches. It is a continuation exactly when it is non-empty and free of `[` and `]`. Every other line is dropped. |
| Messages.TextLength | message.py:78-88 | The length of a message's text is its character count plus one newline between neighbouring lines. |
| Messages.TextRoundTrip | message.py:78-80 | Splitting a message's text on newlines gives back its lines, when no line contains a newline. |
| Messages.ExtendCounts | message.py:51-52 | Appending a continuation line adds one line and that line's characters, and extends the text by a newline and the line. |
| ChatParser.ParseLinesIsReference | message.py:42-53 | The state machine agrees with the reference: first split the lines into messages, then group the messages by user name. |
| ChatParser.SplitMessagesOk | message.py:46-52 | Parsing succeeds exactly when every header's date parses and no continuation line precedes the first header. |
| ChatParser.SplitMessagesCount | message.py:47-50 | Parsing yields one message per header line. |
| ChatParser.SplitMessagesLines | message.py:46-52 | The messages' lines, concatenated, are exactly the header and continuation lines in transcript order. Dropped lines are absent. |
| ChatParser.SplitMessagesAssembled | message.py:46-52 | Each message is a header line as parsed by `from_line`, followed only by continuation lines. |
| ChatParser.GroupByUserNames | message.py:44-49 | The groups' names are the distinct sender names in order of first appearance. |
| ChatParser.GroupByUserMembers | message.py:44-49 | Each group holds exactly the messages with that name, in transcript order. It is never empty, and its user is the first such message's user. |
| ChatParser.GroupByUserMultiset | message.py:44-49 | Grouping neither loses nor duplicates a message. |
| ChatParser.ParseChatSpec | message.py:42-53 | `parse_chat` succeeds exactly when the transcript is faultless. It then yields one group per distinct name holding that name's messages. Together the groups hold one message per header and one line per header or continuation line. |
| Ordering.SortAsc | utils.py:19 | The result is ascending and a permutation of the input. |
| Ordering.Reverse | utils.py:19 | The result holds the input's elements in the opposite order. |
| Ordering.Top | utils.py:17-19 | The result has `limit` elements (all of them for limit 0, or fewer if the input is shorter) and is in descending order. It is a sub-multiset of the input, and every element left out ranks no higher than every element kept. |
| Tallies.Bump | utils.py:30 | Adding one occurrence of a key raises that key's count by one and leaves every other count alone. A new key is appended at the end. |
| Tallies.Tally | utils.py:27-31 | The keys are the distinct elements in order of first appearance. Each key's count is its number of occurrences, and the counts sum to the input length. |
| Tallies.FirstAppearanceOrder | utils.py:27-31 | If a key comes before another key, then its first occurrence comes before every occurrence of the later key. |
| Tallies.StrToDict | utils.py:22-31 | The result is the tally of the filtered characters. Its keys are exactly the characters that occur and are in the filter. A character's count is its number of occurrences if it is in the filter, and 0 otherwise. |
| AdjacentDates.GroupAdjacentDatesLoop | utils.py:34-47 | The loop computes the same segments as the recursive definition. |
| AdjacentDates.GroupAdjacentDatesRuns | utils.py:34-47 | The input splits into maximal runs of consecutive days. The segments are those runs' first day, last day and recorded length. |
| AdjacentDates.SegmentShape | utils.py:41-46 | Each segment starts no later than it ends. Closed segments record `end - start` and the last one records `end - start + 1`. Neighbouring segments never touch. |
| AdjacentDates.SegmentsTile | utils.py:34-47 | Expanding the segments back into days gives the input. The first segment starts at the first day and the last ends at the last day. |
| AdjacentDates.SegmentCount | utils.py:41-45 | There is one more segment than there are breaks between neighbouring days. |
| AdjacentDates.SegmentGaps | utils.py:35-36 | On strictly increasing days, each segment starts more than one day after the previous one ends. |
| AdjacentDates.LongestSegmentBounds | stats.py:85 | The longest streak records a length between 1 and its span, and every day it spans is an input day. |
| AdjacentDates.ShortRunExample | utils.py:41-46 | Days `[1, 2, 4]` give two segments of length 1, and the later one is the maximum. |
| AdjacentDates.UnsortedExample | utils.py:34-47 | Unsorted days `[1, 3, 2]` give three one-day segments. The three-day run 1-3 is split, and the longest streak reported is the one-day segment for day 2. |
| Stats.Start | stats.py:92 | `start` is an `EmptyMessageList` fault on no messages. Otherwise it is some message's timestamp and no later than any message's. |
| Stats.End | stats.py:93 | `end` is an `EmptyMessageList` fault on no messages. Otherwise it is some message's timestamp and no earlier than any message's. |
| Stats.StartNotAfterEnd | stats.py:92-93 | `start` is no later than `end`. They are equal exactly when all messages share one timestamp. |
| Stats.LinesAtLeastMessages | stats.py:94-95 | `num_lines` is at least `num_messages`. They are equal exactly when no message has a continuation line. |
| Stats.CharactersOfTexts | stats.py:94-96 | `num_characters` plus `num_lines` equals the length of all message texts plus the number of messages. |
| Stats.TopOfTally | stats.py:54 | `top` over a tally's `(count, key)` pairs returns true entries of the tally. Each entry left out ranks no higher than each entry kept. |
| Stats.EmojiCount | stats.py:49-55 | `count` is the number of emoji characters in the joined text. `most_used` is absent exactly when that count is 0. |
| Stats.EmojiMostUsed | stats.py:49-55 | `most_used` holds min(3, number of distinct emoji used) ranks in descending order. Each is some used emoji's (count, code point) pair, and no omitted emoji outranks one kept. |
| Stats.FirstMarker | stats.py:67-72 | A text is assigned the first marker, in category order, that it contains, or no category if it contains none. |
| Stats.ComputeSharing | stats.py:58-73 | The result has the five categories in order. Each count is the number of messages whose first contained marker is that category's. The counts plus the unmatched messages make up all messages. |
| Stats.VideoOmittedUncounted | stats.py:62 | A text reading `video omitted` matches no marker. |
| Activity.ComputeActivity | stats.py:76-86 | The activity is an `EmptyMessageList` fault exactly when there are no messages. |
| Activity.ActiveDays | stats.py:83 | `num_active_days` is the number of distinct message days. |
| Activity.ActivityPerDay | stats.py:82 | `activity_per_day` lists each distinct day once, in increasing order, with its message count. The counts sum to the number of messages. |
| Activity.ActivityMostActive | stats.py:84 | `most_active_days` holds min(3, active days) (count, day) ranks in descending order. Each is a true day count, and no omitted day outranks one kept. |
| Activity.ActivityLongest | stats.py:85 | `longest_streak` is the maximum segment of the distinct days in first-appearance order. It spans only message days. |
| Activity.ActivityChronological | utils.py:35-36 | For chronologically ordered messages the distinct days are strictly increasing. The streak segments then never touch. |
| Report.ComputeUserStats | stats.py:29-31 | The per-list statistics are an `EmptyMessageList` fault exactly when the list is empty. |
| Report.UserStatsSpec | stats.py:91-101 | For a non-empty list, `start` is its earliest timestamp and `end` its latest. The totals count the list's messages, lines and characters. The `emojis`, `sharing` and `activity` entries are the results of `Stats.ComputeEmojis`, `Stats.ComputeSharing` and `Activity.ComputeActivity`, which the Stats and Activity lemmas describe. There is at least one active day. |
| Report.MapEntries | stats.py:14-21 | The mapped entries keep the groups' order and users, pairing each with its statistics. The map fails exactly when some group's reduction fails. |
| Report.ComputeStats | stats.py:11-26 | `compute_stats` succeeds exactly when there is at least one user and no user's list is empty. Otherwise it is an `EmptyMessageList` fault. |
| Report.ComputeStatsEntries | stats.py:13-26 | When `compute_stats` succeeds, there is one users entry per group, in the groups' order. Each entry pairs the group's user with `_user_stats` of that group's own messages. The `group` entry is `_user_stats` of all messages. |
| Report.GroupTotals | stats.py:13-22 | The group's message, line and character totals are the sums of the users' totals. |
| Report.GroupSpan | stats.py:13-22 | The group's `start` is the earliest of the users' `start`s and is one of them. Likewise `end` is the latest of the users' `end`s and is one of them. |
| Report.ChatReportSpec | stats.py:11-26 | The report of a transcript exists exactly when the transcript is faultless and has a header line. It then has one entry per distinct sender. The group counts one message per header line, and one line per header or continuation line. |

## Left out

- analyze.py is not part of this model: it reads the fixed files
  `_chat.txt` and `numbers.json` and pretty-prints the report. The
  context manager `time_it` in utils.py only prints timings, and is not
  modelled either.
- `compute_stats` reduces the lists with a process pool. The model
  applies `_user_stats` sequentially in the same order. The pool's
  result order does not depend on scheduling, so nothing observable is
  lost.
- `_compute_sentiment` (stats.py:34-46) and the `sentiment` statistic
  are not modelled. They depend on TextBlob's French analyzer and on
  floating point. `UserStats` has no sentiment field.
- The `pendulum.from_format` call (message.py:76) is not modelled. Date
  parsing is the parameter `parseDate`, and the `'DD/MM/YYYY, HH:mm:ss'`
  format is not modelled.
- `UNICODE_EMOJI` is an abstract `set<char>` parameter, not its actual
  contents. `str_to_dict` tests one character at a time, so only
  single-character emoji can ever be counted, in the program as in the
  model. Each is ranked by its code point.
- `\d` in the phone pattern is modelled as the ASCII digits `0`-`9`.
  Python also accepts other Unicode decimal digits.
- Ordering.Top: modelled for `(int, int)` pairs only, which are all the
  program ever ranks, rather than for any comparable data.
- Report.ComputeUserStats: its own contract states only when it fails.
  `Report.UserStatsSpec` states what each field holds, which keeps
  proofs that mention the function cheap. For the same reason, what
  each entry of the report holds is stated by
  `Report.ComputeStatsEntries`, not by `Report.ComputeStats` itself.
- Days are unbounded integers. Python's dates end at 9999-12-31, so
  `previous + dt.timedelta(days=1)` (utils.py:42) raises `OverflowError`
  when that date is not the last day. That overflow is not modelled.
- AdjacentDates.GroupAdjacentDatesLoop: requires a non-empty list. The
  program raises `IndexError` on an empty list, and that case is
  reported by `Activity.ComputeActivity` as `EmptyMessageList`.

=== FILE: activity.dfy ===
/** `_compute_activity` (stats.py): messages per calendar day, the number
    of active days, the three most active days and the longest streak. */
module Activity {
  import opened Common
  import opened Ordering
  import opened Tallies
  import opened AdjacentDates
  import opened Messages
  import opened Stats

  /** `activity_per_day` as (day, count) pairs, `num_active_days`,
      `most_active_days` as (count, day) pairs and `longest_streak`. */
  datatype ActivityStats = ActivityStats(perDay: seq<Pair>, numActiveDays: nat, mostActive: seq<Pair>, longest: Segment)

  /** `m.date.date()` of each message, in order. */
  function Days(ms: seq<Message>): (ds: seq<int>)
    ensures |ds| == |ms|
    ensures forall i :: 0 <= i < |ms| ==> ds[i] == ms[i].stamp.day
  {
    seq(|ms|, i requires 0 <= i < |ms| => ms[i].stamp.day)
  }

  /** `grouped_by_date.items()` as (day, count) pairs. */
  function DayCountPairs(h: seq<(int, nat)>): (ps: seq<Pair>)
    ensures |ps| == |h|
    ensures forall i :: 0 <= i < |h| ==> ps[i] == (h[i].0, h[i].1 as int)
  {
    seq(|h|, i requires 0 <= i < |h| => (h[i].0, h[i].1 as int))
  }

  /** `_compute_activity`. `group_adjacent_dates` fails on the empty list
      of days of an empty message list. */
  function ComputeActivity(ms: seq<Message>): (r: Result<ActivityStats>)
    ensures r.Err? <==> |ms| == 0
    ensures r.Err? ==> r.fault == EmptyMessageList
  {
    var days := Days(ms);
    var h := Tally(days);
    if |ms| == 0 then Err(EmptyMessageList)
    else
      assert days[0] in Keys(h);
      Ok(ActivityStats(SortAsc(DayCountPairs(h)), |h|, Top(CountKeyPairs(h), 3),
                       MaxSegment(GroupAdjacentDates(Keys(h)))))
  }

  /** The number of messages on day `d`, then the day: how
      `most_active_days` ranks a day. */
  function DayRank(days: seq<int>, d: int): Pair
  {
    (multiset(days)[d], d)
  }

  lemma {:induction false} SumSndDayCounts(h: seq<(int, nat)>)
    ensures SumSnd(DayCountPairs(h)) == Total(h)
    decreases |h|
  {
    if |h| > 0 {
      assert DayCountPairs(h)[1..] == DayCountPairs(h[1..]);
      SumSndDayCounts(h[1..]);
    }
  }

  /** `num_active_days` is the number of distinct days. */
  lemma {:induction false} ActiveDays(ms: seq<Message>)
    requires |ms| > 0
    ensures ComputeActivity(ms).value.numActiveDays == |set d | d in Days(ms)|
  {
    var days := Days(ms);
    assert ComputeActivity(ms).value.numActiveDays == |Tally(days)|;
    DistinctDays(days);
  }

  lemma {:induction false} DistinctDays(days: seq<int>)
    ensures |Tally(days)| == |set d | d in days|
  {
    var h := Tally(days);
    NoDupsCard(Keys(h));
    assert (set d | d in Keys(h)) == (set d | d in days);
  }

  /** `activity_per_day` lists each active day once, with its number of
      messages, strictly ascending by day, and the counts add up to the
      number of messages. */
  lemma {:induction false} ActivityPerDay(ms: seq<Message>)
    requires |ms| > 0
    ensures var a := ComputeActivity(ms).value;
      var days := Days(ms);
      && |a.perDay| == a.numActiveDays
      && (forall i, j :: 0 <= i < j < |a.perDay| ==> a.perDay[i].0 < a.perDay[j].0)
      && (forall p :: p in a.perDay ==> p.0 in days && p.1 == multiset(days)[p.0])
      && (forall d :: d in days ==> (d, multiset(days)[d]) in a.perDay)
      && SumSnd(a.perDay) == |ms|
  {
    var days := Days(ms);
    SortedTally(days);
  }

  /** The sorted (day, count) pairs of the tally of `days`. */
  lemma {:induction false} SortedTally(days: seq<int>)
    ensures var h := Tally(days);
      var sorted := SortAsc(DayCountPairs(h));
      && |sorted| == |h|
      && (forall i, j :: 0 <= i < j < |sorted| ==> sorted[i].0 < sorted[j].0)
      && (forall p :: p in sorted ==> p.0 in days && p.1 == multiset(days)[p.0])
      && (forall d :: d in days ==> (d, multiset(days)[d]) in sorted)
      && SumSnd(sorted) == |days|
  {
    var h := Tally(days);
    SumSndDayCounts(h);
    PerDayKeys(h);
    SortedByKey(SortAsc(DayCountPairs(h)), DayCountPairs(h));
    TallyEntries(days);
    SortedEntries(h, days);
  }

  lemma {:induction false} SortedEntries(h: seq<(int, nat)>, days: seq<int>)
    requires forall x :: x in Keys(h) <==> x in days
    requires forall i :: 0 <= i < |h| ==> h[i].1 == multiset(days)[h[i].0]
    ensures var sorted := SortAsc(DayCountPairs(h));
      && (forall p :: p in sorted ==> p.0 in days && p.1 == multiset(days)[p.0])
      && (forall d :: d in days ==> (d, multiset(days)[d]) in sorted)
  {
    var ps := DayCountPairs(h);
    var sorted := SortAsc(ps);
    assert multiset(sorted) == multiset(ps);
    forall p | p in sorted
      ensures p.0 in days && p.1 == multiset(days)[p.0]
    {
      assert p in multiset(sorted);
      assert p in multiset(ps);
      EntryOfPairs(h, days, p);
    }
    forall d | d in days
      ensures (d, multiset(days)[d]) in sorted
    {
      PairOfEntry(h, days, d);
      var q := (d, multiset(days)[d] as int);
      assert q in multiset(ps);
      assert q in multiset(sorted);
    }
  }

  lemma {:induction false} EntryOfPairs(h: seq<(int, nat)>, days: seq<int>, p: Pair)
    requires forall x :: x in Keys(h) <==> x in days
    requires forall i :: 0 <= i < |h| ==> h[i].1 == multiset(days)[h[i].0]
    requires p in DayCountPairs(h)
    ensures p.0 in days && p.1 == multiset(days)[p.0]
  {
    var ps := DayCountPairs(h);
    var i :| 0 <= i < |ps| && ps[i] == p;
    assert Keys(h)[i] == p.0;
  }

  lemma {:induction false} PairOfEntry(h: seq<(int, nat)>, days: seq<int>, d: int)
    requires forall x :: x in Keys(h) <==> x in days
    requires forall i :: 0 <= i < |h| ==> h[i].1 == multiset(days)[h[i].0]
    requires d in days
    ensures (d, multiset(days)[d]) in DayCountPairs(h)
  {
    assert d in Keys(h);
    var i :| 0 <= i < |h| && Keys(h)[i] == d;
    assert DayCountPairs(h)[i] == (d, multiset(days)[d]);
  }

  lemma {:induction false} PerDayKeys(h: seq<(int, nat)>)
    requires NoDups(Keys(h))
    ensures var ps := DayCountPairs(h);
      forall i, j :: 0 <= i < j < |ps| ==> ps[i].0 != ps[j].0
  {
    var ps := DayCountPairs(h);
    forall i, j | 0 <= i < j < |ps| ensures ps[i].0 != ps[j].0 {
      assert Keys(h)[i] != Keys(h)[j];
    }
  }

  /** `most_active_days` holds min(3, number of active days) days, largest
      (count, day) first; each pairs an active day with its number of
      messages, and no day left out ranks above a day listed. */
  lemma {:induction false} ActivityMostActive(ms: seq<Message>)
    requires |ms| > 0
    ensures var a := ComputeActivity(ms).value;
      var days := Days(ms);
      && |a.mostActive| == Min(3, a.numActiveDays)
      && Descending(a.mostActive)
      && (forall p :: p in a.mostActive ==> p.1 in days && p == DayRank(days, p.1))
      && (forall d, p :: d in days && p in a.mostActive && DayRank(days, d) !in a.mostActive ==>
            PairLe(DayRank(days, d), p))
  {
    var days := Days(ms);
    var h := Tally(days);
    TopOfTally(h, 3);
  }

  /** `longest_streak` is the greatest (length, start, end) segment of the
      distinct days in order of first appearance; it is at least one day
      long, no longer than its span, and every day of its span is
      active. */
  lemma {:induction false} ActivityLongest(ms: seq<Message>)
    requires |ms| > 0
    ensures var m := ComputeActivity(ms).value.longest;
      var days := Days(ms);
      && m in GroupAdjacentDates(Distinct(days))
      && (forall s :: s in GroupAdjacentDates(Distinct(days)) ==> SegmentLe(s, m))
      && 1 <= m.length <= m.end - m.start + 1
      && (forall d :: m.start <= d <= m.end ==> d in days)
  {
    var days := Days(ms);
    assert ComputeActivity(ms).value.longest == MaxSegment(GroupAdjacentDates(Distinct(days)));
    LongestOfDays(days);
  }

  lemma {:induction false} LongestOfDays(days: seq<int>)
    requires |days| > 0
    ensures var m := MaxSegment(GroupAdjacentDates(Distinct(days)));
      && m in GroupAdjacentDates(Distinct(days))
      && (forall s :: s in GroupAdjacentDates(Distinct(days)) ==> SegmentLe(s, m))
      && 1 <= m.length <= m.end - m.start + 1
      && (forall d :: m.start <= d <= m.end ==> d in days)
  {
    assert days[0] in Distinct(days);
    LongestSegmentBounds(Distinct(days));
  }

  /** Days of a chronological list, in order of first appearance, are
      strictly increasing. */
  lemma {:induction false} DistinctOfSorted(s: seq<int>)
    requires forall i, j :: 0 <= i < j < |s| ==> s[i] <= s[j]
    ensures StrictlyIncreasing(Distinct(s))
    decreases |s|
  {
    if |s| > 0 {
      var pre := s[..|s| - 1];
      var x := s[|s| - 1];
      DistinctOfSorted(pre);
      var d := Distinct(pre);
      if x !in d {
        forall i | 0 <= i < |d| ensures d[i] < x {
          assert d[i] in pre;
          var q :| 0 <= q < |pre| && pre[q] == d[i];
          assert s[q] <= x;
        }
      }
    }
  }

  /** For messages in chronological order, the days handed to
      group_adjacent_dates are strictly increasing, so its segments are
      separated by gaps of more than a day and `longest_streak` describes
      a maximal run of consecutive active days. */
  lemma {:induction false} ActivityChronological(ms: seq<Message>)
    requires |ms| > 0
    requires forall i, j :: 0 <= i < j < |ms| ==> StampLe(ms[i].stamp, ms[j].stamp)
    ensures StrictlyIncreasing(Distinct(Days(ms)))
    ensures var r := GroupAdjacentDates(Distinct(Days(ms)));
      forall k :: 0 <= k < |r| - 1 ==> r[k + 1].start > r[k].end + 1
  {
    var days := Days(ms);
    assert forall i, j :: 0 <= i < j < |days| ==> days[i] <= days[j] by {
      forall i, j | 0 <= i < j < |days| ensures days[i] <= days[j] {
        assert StampLe(ms[i].stamp, ms[j].stamp);
      }
    }
    DistinctOfSorted(days);
    assert days[0] in Distinct(days);
    SegmentGaps(Distinct(days));
  }
}

=== FILE: adjacent_dates.dfy ===
/** `group_adjacent_dates` (utils.py): run-length segmentation of a list of
    day ordinals into `(length, start, end)` tuples.

    Days are integer ordinals, so `previous + timedelta(days=1)` is
    `previous + 1` and `(previous - start).days` is `previous - start`.
    The list is NOT assumed sorted: the program passes days in order of
    first appearance. A run is closed whenever the next day is not the day
    after the previous one. A closed run reports `end - start`, the final
    run `end - start + 1`. */
module AdjacentDates {

  /** The tuple `(length, start, end)`. */
  datatype Segment = Segment(length: int, start: int, end: int)

  /** Python's comparison of `(length, start, end)` tuples. */
  predicate SegmentLe(a: Segment, b: Segment)
  {
    || a.length < b.length
    || (a.length == b.length && a.start < b.start)
    || (a.length == b.length && a.start == b.start && a.end <= b.end)
  }

  /** The rest of the loop of group_adjacent_dates, entered with the
      current run opened at `start` and last extended by `previous`. */
  function GroupFrom(start: int, previous: int, rest: seq<int>): (r: seq<Segment>)
    ensures |r| > 0
    decreases |rest|
  {
    if |rest| == 0 then [Segment(previous - start + 1, start, previous)]
    else if rest[0] != previous + 1 then
      [Segment(previous - start, start, previous)] + GroupFrom(rest[0], rest[0], rest[1..])
    else GroupFrom(start, rest[0], rest[1..])
  }

  /** group_adjacent_dates; the program fails on an empty list at
      `day_list[0]`, hence the precondition. */
  function GroupAdjacentDates(days: seq<int>): (r: seq<Segment>)
    requires |days| > 0
    ensures |r| > 0
  {
    GroupFrom(days[0], days[0], days[1..])
  }

  /** The loop of group_adjacent_dates as written, accumulating closed runs
      in `result`; it computes the same segments as the recursive model. */
  method GroupAdjacentDatesLoop(days: seq<int>) returns (result: seq<Segment>)
    requires |days| > 0
    ensures result == GroupAdjacentDates(days)
  {
    var start := days[0];
    var previous := start;
    result := [];
    var i := 1;
    while i < |days|
      invariant 1 <= i <= |days|
      invariant result + GroupFrom(start, previous, days[i..]) == GroupAdjacentDates(days)
    {
      var date := days[i];
      assert days[i..][1..] == days[i + 1..];
      if date != previous + 1 {
        result := result + [Segment(previous - start, start, previous)];
        start := date;
      }
      previous := date;
      i := i + 1;
    }
    assert days[i..] == [];
    result := result + [Segment(previous - start + 1, start, previous)];
  }

  // ---------------------------------------------------------------------
  // Reference: the partition of the list into maximal runs of
  // consecutive days.

  function Last(s: seq<int>): int
    requires |s| > 0
  {
    s[|s| - 1]
  }

  /** Each element is one more than the element before it. */
  predicate Consecutive(run: seq<int>)
  {
    forall j :: 0 <= j < |run| - 1 ==> run[j + 1] == run[j] + 1
  }

  predicate StrictlyIncreasing(s: seq<int>)
  {
    forall i, j :: 0 <= i < j < |s| ==> s[i] < s[j]
  }

  function Flatten(runs: seq<seq<int>>): seq<int>
  {
    if |runs| == 0 then [] else runs[0] + Flatten(runs[1..])
  }

  /** The days `lo, lo + 1, ..., hi` (empty when `hi < lo`). */
  function Range(lo: int, hi: int): (r: seq<int>)
    ensures |r| == if hi < lo then 0 else hi - lo + 1
    ensures forall j :: 0 <= j < |r| ==> r[j] == lo + j
    decreases hi - lo
  {
    if hi < lo then [] else [lo] + Range(lo + 1, hi)
  }

  /** The day ranges of the segments, concatenated. */
  function Expand(segs: seq<Segment>): seq<int>
  {
    if |segs| == 0 then [] else Range(segs[0].start, segs[0].end) + Expand(segs[1..])
  }

  /** Positions `i >= 1` where the list does not continue the previous
      day: `days[i] != days[i - 1] + 1`. */
  function Breaks(days: seq<int>): nat
  {
    if |days| < 2 then 0
    else (if days[1] != days[0] + 1 then 1 else 0) + Breaks(days[1..])
  }

  /** `runs` cuts `days` into non-empty runs of consecutive days, and no
      run continues into the next one. */
  predicate IsRunPartition(days: seq<int>, runs: seq<seq<int>>)
  {
    && Flatten(runs) == days
    && (forall k :: 0 <= k < |runs| ==> |runs[k]| > 0 && Consecutive(runs[k]))
    && (forall k :: 0 <= k < |runs| - 1 ==> runs[k + 1][0] != Last(runs[k]) + 1)
  }

  /** The maximal runs of `cur + rest`, where `cur` is the run in progress. */
  function RunsFrom(cur: seq<int>, rest: seq<int>): (runs: seq<seq<int>>)
    requires |cur| > 0
    ensures |runs| > 0 && |runs[0]| > 0 && runs[0][0] == cur[0]
    ensures forall k :: 0 <= k < |runs| ==> |runs[k]| > 0
    decreases |rest|
  {
    if |rest| == 0 then [cur]
    else if rest[0] != Last(cur) + 1 then [cur] + RunsFrom([rest[0]], rest[1..])
    else RunsFrom(cur + [rest[0]], rest[1..])
  }

  function Runs(days: seq<int>): seq<seq<int>>
    requires |days| > 0
  {
    RunsFrom([days[0]], days[1..])
  }

  /** The segments that describe `runs`: the first and last day of each run,
      and its number of days, less one for every run but the final one. */
  function SegmentsOf(runs: seq<seq<int>>): seq<Segment>
    requires forall k :: 0 <= k < |runs| ==> |runs[k]| > 0
  {
    if |runs| == 0 then []
    else if |runs| == 1 then [Segment(|runs[0]|, runs[0][0], Last(runs[0]))]
    else [Segment(|runs[0]| - 1, runs[0][0], Last(runs[0]))] + SegmentsOf(runs[1..])
  }

  // ---------------------------------------------------------------------
  // Lemmas.

  /** A consecutive run spans one day less than its number of elements and
      is exactly the range from its first to its last day. */
  lemma {:induction false} ConsecutiveSpan(run: seq<int>)
    requires |run| > 0 && Consecutive(run)
    ensures Last(run) - run[0] == |run| - 1
    ensures run == Range(run[0], Last(run))
  {
    forall j | 0 <= j < |run|
      ensures run[j] == run[0] + j
    {
      ConsecutiveAt(run, j);
    }
  }

  lemma {:induction false} ConsecutiveAt(run: seq<int>, j: nat)
    requires j < |run| && Consecutive(run)
    ensures run[j] == run[0] + j
    decreases j
  {
    if j > 0 {
      ConsecutiveAt(run, j - 1);
    }
  }

  /** The runs computed from a run in progress partition the remaining
      input, and there is one more run than there are breaks. */
  lemma {:induction false} RunsFromPartition(cur: seq<int>, rest: seq<int>)
    requires |cur| > 0 && Consecutive(cur)
    ensures IsRunPartition(cur + rest, RunsFrom(cur, rest))
    ensures |RunsFrom(cur, rest)| == 1 + Breaks([Last(cur)] + rest)
  {
    RunsFromCovers(cur, rest);
    RunsFromCount(cur, rest);
  }

  lemma {:induction false} RunsFromCovers(cur: seq<int>, rest: seq<int>)
    requires |cur| > 0 && Consecutive(cur)
    ensures IsRunPartition(cur + rest, RunsFrom(cur, rest))
    decreases |rest|
  {
    var runs := RunsFrom(cur, rest);
    if |rest| == 0 {
      assert cur + rest == cur;
      assert Flatten(runs) == cur + Flatten([]);
    } else if rest[0] != Last(cur) + 1 {
      var tail := RunsFrom([rest[0]], rest[1..]);
      RunsFromCovers([rest[0]], rest[1..]);
      assert [rest[0]] + rest[1..] == rest;
      assert runs == [cur] + tail;
      assert runs[1..] == tail;
      assert Flatten(runs) == cur + Flatten(tail);
    } else {
      var cur' := cur + [rest[0]];
      RunsFromCovers(cur', rest[1..]);
      assert cur' + rest[1..] == cur + rest;
    }
  }

  lemma {:induction false} RunsFromCount(cur: seq<int>, rest: seq<int>)
    requires |cur| > 0
    ensures |RunsFrom(cur, rest)| == 1 + Breaks([Last(cur)] + rest)
    decreases |rest|
  {
    if |rest| == 0 {
    } else if rest[0] != Last(cur) + 1 {
      RunsFromCount([rest[0]], rest[1..]);
      assert ([Last(cur)] + rest)[1..] == rest;
      assert [rest[0]] + rest[1..] == rest;
    } else {
      var cur' := cur + [rest[0]];
      RunsFromCount(cur', rest[1..]);
      assert ([Last(cur)] + rest)[1..] == rest;
      assert [Last(cur')] + rest[1..] == rest;
    }
  }

  /** The loop's segments are the segments of the maximal runs. */
  lemma {:induction false} GroupFromRuns(cur: seq<int>, rest: seq<int>)
    requires |cur| > 0 && Consecutive(cur)
    ensures GroupFrom(cur[0], Last(cur), rest) == SegmentsOf(RunsFrom(cur, rest))
    decreases |rest|
  {
    RunsFromPartition(cur, rest);
    ConsecutiveSpan(cur);
    if |rest| == 0 {
    } else if rest[0] != Last(cur) + 1 {
      var tail := RunsFrom([rest[0]], rest[1..]);
      GroupFromRuns([rest[0]], rest[1..]);
      assert ([cur] + tail)[1..] == tail;
    } else {
      GroupFromRuns(cur + [rest[0]], rest[1..]);
    }
  }

  /** group_adjacent_dates describes the partition of its input into
      maximal runs of consecutive days. */
  lemma {:induction false} GroupAdjacentDatesRuns(days: seq<int>)
    requires |days| > 0
    ensures IsRunPartition(days, Runs(days))
    ensures GroupAdjacentDates(days) == SegmentsOf(Runs(days))
  {
    RunsFromPartition([days[0]], days[1..]);
    GroupFromRuns([days[0]], days[1..]);
    assert [days[0]] + days[1..] == days;
  }

  /** Reading the segments of a partition into runs back: one segment per
      run, in order, each recording its run's first and last day; the
      day ranges of the segments, concatenated, are the runs again. */
  lemma {:induction false} SegmentsOfFacts(runs: seq<seq<int>>)
    requires forall k :: 0 <= k < |runs| ==> |runs[k]| > 0 && Consecutive(runs[k])
    ensures |SegmentsOf(runs)| == |runs|
    ensures forall k :: 0 <= k < |runs| ==>
              && SegmentsOf(runs)[k].start == runs[k][0]
              && SegmentsOf(runs)[k].end == Last(runs[k])
              && SegmentsOf(runs)[k].length == |runs[k]| - (if k < |runs| - 1 then 1 else 0)
    ensures Expand(SegmentsOf(runs)) == Flatten(runs)
    decreases |runs|
  {
    if |runs| > 0 {
      ConsecutiveSpan(runs[0]);
      SegmentsOfFacts(runs[1..]);
      if |runs| == 1 {
        assert Expand(SegmentsOf(runs)) == runs[0] + Expand([]);
        assert Flatten(runs) == runs[0] + Flatten([]);
      } else {
        var segs := SegmentsOf(runs);
        assert segs[1..] == SegmentsOf(runs[1..]);
      }
    }
  }

  /** With strictly increasing input, a run ends at least two days before
      the next one starts. */
  lemma {:induction false} RunsFromGaps(cur: seq<int>, rest: seq<int>)
    requires |cur| > 0
    requires StrictlyIncreasing(cur + rest)
    ensures forall k :: 0 <= k < |RunsFrom(cur, rest)| - 1 ==>
              RunsFrom(cur, rest)[k + 1][0] > Last(RunsFrom(cur, rest)[k]) + 1
    decreases |rest|
  {
    var whole := cur + rest;
    if |rest| == 0 {
    } else if rest[0] != Last(cur) + 1 {
      assert whole[|cur| - 1] == Last(cur) && whole[|cur|] == rest[0];
      assert [rest[0]] + rest[1..] == rest == whole[|cur|..];
      RunsFromGaps([rest[0]], rest[1..]);
      var tail := RunsFrom([rest[0]], rest[1..]);
      assert RunsFrom(cur, rest) == [cur] + tail;
    } else {
      assert (cur + [rest[0]]) + rest[1..] == whole;
      RunsFromGaps(cur + [rest[0]], rest[1..]);
    }
  }

  /** There is one segment more than there are breaks in the input. */
  lemma {:induction false} SegmentCount(days: seq<int>)
    requires |days| > 0
    ensures |GroupAdjacentDates(days)| == 1 + Breaks(days)
  {
    GroupAdjacentDatesRuns(days);
    RunsFromPartition([days[0]], days[1..]);
    SegmentsOfFacts(Runs(days));
    assert [days[0]] + days[1..] == days;
  }

  /** Shape of each segment: it spans from its start to its end, a closed
      segment reports one day less than its span and the final segment its
      full span; no segment is followed by one that starts on the day after
      it ends. */
  lemma {:induction false} SegmentShape(days: seq<int>)
    requires |days| > 0
    ensures var r := GroupAdjacentDates(days);
      && (forall k :: 0 <= k < |r| ==> r[k].start <= r[k].end)
      && (forall k :: 0 <= k < |r| - 1 ==> r[k].length == r[k].end - r[k].start)
      && r[|r| - 1].length == r[|r| - 1].end - r[|r| - 1].start + 1
      && (forall k :: 0 <= k < |r| - 1 ==> r[k + 1].start != r[k].end + 1)
  {
    GroupAdjacentDatesRuns(days);
    SegmentsOfShape(days, Runs(days));
  }

  lemma {:induction false} SegmentsOfShape(days: seq<int>, runs: seq<seq<int>>)
    requires |days| > 0
    requires IsRunPartition(days, runs)
    ensures var r := SegmentsOf(runs);
      && |r| == |runs|
      && (forall k :: 0 <= k < |r| ==> r[k].start <= r[k].end)
      && (forall k :: 0 <= k < |r| - 1 ==> r[k].length == r[k].end - r[k].start)
      && (|r| > 0 ==> r[|r| - 1].length == r[|r| - 1].end - r[|r| - 1].start + 1)
      && (forall k :: 0 <= k < |r| - 1 ==> r[k + 1].start != r[k].end + 1)
  {
    SegmentsOfFacts(runs);
    SegmentLengths(runs);
  }

  lemma {:induction false} SegmentLengths(runs: seq<seq<int>>)
    requires forall k :: 0 <= k < |runs| ==> |runs[k]| > 0 && Consecutive(runs[k])
    ensures var r := SegmentsOf(runs);
      && |r| == |runs|
      && (forall k :: 0 <= k < |r| ==> r[k].start <= r[k].end)
      && (forall k :: 0 <= k < |r| - 1 ==> r[k].length == r[k].end - r[k].start)
      && (|r| > 0 ==> r[|r| - 1].length == r[|r| - 1].end - r[|r| - 1].start + 1)
  {
    SegmentsOfFacts(runs);
    forall k | 0 <= k < |runs|
      ensures Last(runs[k]) - runs[k][0] == |runs[k]| - 1
    {
      ConsecutiveSpan(runs[k]);
    }
  }

  /** The segments tile the input in order: expanding each segment into
      the days from its start to its end and concatenating gives back the
      input list exactly. */
  lemma {:induction false} SegmentsTile(days: seq<int>)
    requires |days| > 0
    ensures Expand(GroupAdjacentDates(days)) == days
    ensures GroupAdjacentDates(days)[0].start == days[0]
    ensures GroupAdjacentDates(days)[|GroupAdjacentDates(days)| - 1].end == days[|days| - 1]
  {
    GroupAdjacentDatesRuns(days);
    var runs := Runs(days);
    SegmentsOfFacts(runs);
    FlattenFirstLast(runs);
  }

  lemma {:induction false} FlattenFirstLast(runs: seq<seq<int>>)
    requires |runs| > 0
    requires forall k :: 0 <= k < |runs| ==> |runs[k]| > 0
    ensures |Flatten(runs)| > 0
    ensures Flatten(runs)[0] == runs[0][0]
    ensures Flatten(runs)[|Flatten(runs)| - 1] == Last(runs[|runs| - 1])
    decreases |runs|
  {
    if |runs| > 1 {
      FlattenFirstLast(runs[1..]);
    } else {
      assert Flatten(runs) == runs[0] + Flatten([]);
    }
  }

  /** Every day from a segment's start to its end occurs in the input. */
  lemma {:induction false} SegmentDaysPresent(days: seq<int>)
    requires |days| > 0
    ensures var r := GroupAdjacentDates(days);
      forall k, d :: 0 <= k < |r| && r[k].start <= d <= r[k].end ==> d in days
  {
    var r := GroupAdjacentDates(days);
    SegmentsTile(days);
    forall k, d | 0 <= k < |r| && r[k].start <= d <= r[k].end
      ensures d in days
    {
      ExpandContains(r, k, d);
    }
  }

  lemma {:induction false} ExpandContains(segs: seq<Segment>, k: nat, d: int)
    requires k < |segs| && segs[k].start <= d <= segs[k].end
    ensures d in Expand(segs)
    decreases k
  {
    if k == 0 {
      assert Range(segs[0].start, segs[0].end)[d - segs[0].start] == d;
    } else {
      ExpandContains(segs[1..], k - 1, d);
    }
  }

  /** For strictly increasing input (what the function's documentation
      assumes) adjacent segments are separated by a gap of more than one
      day, so each segment is a maximal run of consecutive days. */
  lemma {:induction false} SegmentGaps(days: seq<int>)
    requires |days| > 0
    requires StrictlyIncreasing(days)
    ensures var r := GroupAdjacentDates(days);
      forall k :: 0 <= k < |r| - 1 ==> r[k + 1].start > r[k].end + 1
  {
    GroupAdjacentDatesRuns(days);
    var runs := Runs(days);
    SegmentsOfFacts(runs);
    assert [days[0]] + days[1..] == days;
    RunsFromGaps([days[0]], days[1..]);
  }

  /** Python's `max` over the tuples: the greatest segment. */
  function MaxSegment(segs: seq<Segment>): (m: Segment)
    requires |segs| > 0
    ensures m in segs
    ensures forall s :: s in segs ==> SegmentLe(s, m)
  {
    if |segs| == 1 then segs[0]
    else
      var rest := MaxSegment(segs[1..]);
      assert segs == [segs[0]] + segs[1..];
      if SegmentLe(rest, segs[0]) then segs[0] else rest
  }

  /** The longest streak of a non-empty list is at least one day long,
      covers only days of the list, and reports no more than its span. */
  lemma {:induction false} LongestSegmentBounds(days: seq<int>)
    requires |days| > 0
    ensures var m := MaxSegment(GroupAdjacentDates(days));
      && 1 <= m.length <= m.end - m.start + 1
      && (forall d :: m.start <= d <= m.end ==> d in days)
  {
    var r := GroupAdjacentDates(days);
    var m := MaxSegment(r);
    SegmentShape(days);
    SegmentDaysPresent(days);
    assert SegmentLe(r[|r| - 1], m);
    var k :| 0 <= k < |r| && r[k] == m;
  }

  /** Three active days, the first two consecutive: the closed run
      reports one day fewer than it has, so the tie on length goes to the
      later single day. */
  lemma {:induction false} ShortRunExample()
    ensures GroupAdjacentDates([1, 2, 4]) == [Segment(1, 1, 2), Segment(1, 4, 4)]
    ensures MaxSegment(GroupAdjacentDates([1, 2, 4])) == Segment(1, 4, 4)
  {
    assert [1, 2, 4][1..] == [2, 4];
    assert [2, 4][1..] == [4];
    assert [4][1..] == [];
    assert [Segment(1, 1, 2), Segment(1, 4, 4)][1..] == [Segment(1, 4, 4)];
  }

  /** Days that are not in increasing order are cut wherever a day does
      not follow its predecessor, even when together they form one run. */
  lemma {:induction false} UnsortedExample()
    ensures GroupAdjacentDates([1, 3, 2]) == [Segment(0, 1, 1), Segment(0, 3, 3), Segment(1, 2, 2)]
    ensures MaxSegment(GroupAdjacentDates([1, 3, 2])) == Segment(1, 2, 2)
  {
    assert [1, 3, 2][1..] == [3, 2];
    assert [3, 2][1..] == [2];
    assert [2][1..] == [];
    var r := [Segment(0, 1, 1), Segment(0, 3, 3), Segment(1, 2, 2)];
    assert r[1..] == [Segment(0, 3, 3), Segment(1, 2, 2)];
    assert r[1..][1..] == [Segment(1, 2, 2)];
  }
}

=== FILE: chat_parser.dfy ===
/** `Message.parse_chat` (message.py): one pass over the transcript lines
    that starts a message at each header line, appends each continuation
    line to the message started last, drops every other line, and groups
    the messages by user.

    `grouped_messages` is a dict keyed by `User`, whose equality is name
    equality; it is modelled as the sequence of its entries in insertion
    order. The Python loop mutates `previous_message`, which is the last
    message of the group it was appended to; the model keeps the index of
    that group instead. */
module ChatParser {
  import opened Common
  import opened Users
  import opened Headers
  import opened Messages
  import opened Tallies

  /** One dict entry: the user key (the user of the group's first message)
      and the user's messages in order. */
  datatype Group = Group(user: User, messages: seq<Message>)

  /** The loop state: the entries so far and the group whose last message
      is `previous_message` (`None` before the first header line). */
  datatype ParseState = ParseState(groups: seq<Group>, current: Option<nat>)

  function Names(groups: seq<Group>): (ns: seq<string>)
    ensures |ns| == |groups|
    ensures forall k :: 0 <= k < |groups| ==> ns[k] == groups[k].user.name
  {
    seq(|groups|, k requires 0 <= k < |groups| => groups[k].user.name)
  }

  /** The dict lookup: the position of the entry whose user equals `u`
      under `User.__eq__`, or the number of entries when there is none. */
  function IndexOf(groups: seq<Group>, u: User): (k: nat)
    ensures k <= |groups|
    ensures k < |groups| ==> SameUser(groups[k].user, u)
    ensures forall j :: 0 <= j < k ==> !SameUser(groups[j].user, u)
    decreases |groups|
  {
    if |groups| == 0 then 0
    else if SameUser(groups[0].user, u) then 0
    else 1 + IndexOf(groups[1..], u)
  }

  /** `grouped_messages[message.user].append(message)`: appends to the
      entry of an equal user, or adds a new entry at the end. */
  function Insert(groups: seq<Group>, m: Message): seq<Group>
  {
    var k := IndexOf(groups, m.user);
    if k < |groups| then groups[k := Group(groups[k].user, groups[k].messages + [m])]
    else groups + [Group(m.user, [m])]
  }

  /** `previous_message._text.append(line)` for the last message of group `k`. */
  function AppendToLast(groups: seq<Group>, k: nat, line: string): seq<Group>
    requires k < |groups| && |groups[k].messages| > 0
  {
    var ms := groups[k].messages;
    groups[k := Group(groups[k].user, ms[..|ms| - 1] + [Extend(ms[|ms| - 1], line)])]
  }

  /** Every entry holds a message and the current group exists. */
  predicate Consistent(st: ParseState)
  {
    && (forall k :: 0 <= k < |st.groups| ==> |st.groups[k].messages| > 0)
    && (st.current.Some? ==> st.current.value < |st.groups|)
  }

  /** One iteration of the loop of parse_chat. A continuation line while
      `previous_message` is still `None` faults, as the attribute access on
      `None` does. */
  function Step(st: ParseState, line: string, numbers: map<string, string>, parseDate: DateParser)
    : (r: Result<ParseState>)
    requires Consistent(st)
    ensures r.Ok? ==> Consistent(r.value)
  {
    match FromLine(line, numbers, parseDate)
    case Err(f) => Err(f)
    case Ok(Some(m)) =>
      Ok(ParseState(Insert(st.groups, m), Some(IndexOf(st.groups, m.user))))
    case Ok(None) =>
      if !IsContinuation(line) then Ok(st)
      else if st.current.None? then Err(NoPreviousMessage)
      else Ok(ParseState(AppendToLast(st.groups, st.current.value, line), st.current))
  }

  /** The loop over all lines; the first fault ends the run. */
  function ParseLines(lines: seq<string>, numbers: map<string, string>, parseDate: DateParser)
    : (r: Result<ParseState>)
    ensures r.Ok? ==> Consistent(r.value)
  {
    if |lines| == 0 then Ok(ParseState([], None))
    else
      match ParseLines(lines[..|lines| - 1], numbers, parseDate)
      case Err(f) => Err(f)
      case Ok(st) => Step(st, lines[|lines| - 1], numbers, parseDate)
  }

  // ---------------------------------------------------------------------
  // Reference: first cut the transcript into messages, then group them.

  /** The messages of the transcript in order: a header line starts one,
      a continuation line extends the latest one whoever sent it. */
  function SplitMessages(lines: seq<string>, numbers: map<string, string>, parseDate: DateParser)
    : Result<seq<Message>>
  {
    if |lines| == 0 then Ok([])
    else
      match SplitMessages(lines[..|lines| - 1], numbers, parseDate)
      case Err(f) => Err(f)
      case Ok(ms) =>
        var line := lines[|lines| - 1];
        match FromLine(line, numbers, parseDate)
        case Err(f) => Err(f)
        case Ok(Some(m)) => Ok(ms + [m])
        case Ok(None) =>
          if !IsContinuation(line) then Ok(ms)
          else if |ms| == 0 then Err(NoPreviousMessage)
          else Ok(ms[..|ms| - 1] + [Extend(ms[|ms| - 1], line)])
  }

  /** The messages grouped by user name, entries in order of first
      appearance. */
  function GroupByUser(ms: seq<Message>): seq<Group>
  {
    if |ms| == 0 then [] else Insert(GroupByUser(ms[..|ms| - 1]), ms[|ms| - 1])
  }

  /** The loop state that corresponds to a list of messages. */
  function Abstract(ms: seq<Message>): ParseState
  {
    var groups := GroupByUser(ms);
    ParseState(groups, if |ms| == 0 then None else Some(IndexOf(groups, ms[|ms| - 1].user)))
  }

  // ---------------------------------------------------------------------
  // The loop computes the reference.

  /** Entries with the same names in the same order have the same lookup. */
  lemma {:induction false} IndexOfSameNames(g1: seq<Group>, g2: seq<Group>, u: User)
    requires Names(g1) == Names(g2)
    ensures IndexOf(g1, u) == IndexOf(g2, u)
  {
    var k1 := IndexOf(g1, u);
    var k2 := IndexOf(g2, u);
    assert |g1| == |Names(g1)| == |g2|;
    assert forall j :: 0 <= j < |g1| ==> g1[j].user.name == Names(g1)[j] == Names(g2)[j] == g2[j].user.name;
  }

  /** After inserting a message, its user's entry is found where the
      loop records it. */
  lemma {:induction false} IndexAfterInsert(groups: seq<Group>, m: Message)
    ensures IndexOf(Insert(groups, m), m.user) == IndexOf(groups, m.user)
  {
    var k := IndexOf(groups, m.user);
    var g := Insert(groups, m);
    if k < |groups| {
      assert Names(g) == Names(groups) by {
        assert forall j :: 0 <= j < |g| ==> Names(g)[j] == Names(groups)[j];
      }
      IndexOfSameNames(g, groups, m.user);
    } else {
      var k' := IndexOf(g, m.user);
      assert g[|groups|].user.name == m.user.name;
      assert k' <= |groups|;
    }
  }

  /** Extending the last message in place is the same as inserting the
      extended message in its stead. */
  lemma {:induction false} InsertExtend(groups: seq<Group>, m: Message, line: string)
    ensures var g := Insert(groups, m);
      var k := IndexOf(g, m.user);
      k < |g| && |g[k].messages| > 0 &&
      Insert(groups, Extend(m, line)) == AppendToLast(g, k, line)
  {
    var g := Insert(groups, m);
    IndexAfterInsert(groups, m);
    var k := IndexOf(groups, m.user);
    var m' := Extend(m, line);
    assert m'.user == m.user;
    if k < |groups| {
      var ms := groups[k].messages + [m];
      assert ms[..|ms| - 1] == groups[k].messages;
      assert ms[|ms| - 1] == m;
      assert Insert(groups, m') == groups[k := Group(groups[k].user, groups[k].messages + [m'])];
    } else {
      assert Insert(groups, m') == groups + [Group(m.user, [m'])];
      assert g == groups + [Group(m.user, [m])];
      assert [m][..0] + [m'] == [m'];
    }
  }

  /** Appending a line to a message changes no entry's user. */
  lemma {:induction false} AppendKeepsNames(groups: seq<Group>, k: nat, line: string)
    requires k < |groups| && |groups[k].messages| > 0
    ensures Names(AppendToLast(groups, k, line)) == Names(groups)
  {
    var g := AppendToLast(groups, k, line);
    assert forall j :: 0 <= j < |g| ==> Names(g)[j] == Names(groups)[j];
  }

  /** The loop of parse_chat computes the reference: the state after any
      prefix of the lines is the grouping of that prefix's messages, with
      the group of the latest message as current; both fault alike. */
  lemma {:induction false} ParseLinesIsReference(lines: seq<string>, numbers: map<string, string>,
                                                 parseDate: DateParser)
    ensures ParseLines(lines, numbers, parseDate) ==
      match SplitMessages(lines, numbers, parseDate)
      case Err(f) => Err(f)
      case Ok(ms) => Ok(Abstract(ms))
    decreases |lines|
  {
    if |lines| > 0 {
      var prefix := lines[..|lines| - 1];
      var line := lines[|lines| - 1];
      ParseLinesIsReference(prefix, numbers, parseDate);
      match SplitMessages(prefix, numbers, parseDate) {
        case Err(f) =>
        case Ok(ms) =>
          match FromLine(line, numbers, parseDate) {
            case Err(f) =>
            case Ok(Some(m)) =>
              var ms' := ms + [m];
              assert ms'[..|ms'| - 1] == ms;
              IndexAfterInsert(GroupByUser(ms), m);
            case Ok(None) =>
              if IsContinuation(line) && |ms| > 0 {
                var n := |ms|;
                var last := ms[n - 1];
                var ms' := ms[..n - 1] + [Extend(last, line)];
                assert ms'[..n - 1] == ms[..n - 1];
                var base := GroupByUser(ms[..n - 1]);
                InsertExtend(base, last, line);
                var k := IndexOf(GroupByUser(ms), last.user);
                AppendKeepsNames(GroupByUser(ms), k, line);
                IndexOfSameNames(GroupByUser(ms'), GroupByUser(ms), last.user);
              }
          }
      }
    }
  }

  // ---------------------------------------------------------------------
  // What the reference promises about the lines.

  /** Number of lines of kind `kind`. */
  function CountKind(lines: seq<string>, kind: LineKind): nat
  {
    if |lines| == 0 then 0
    else CountKind(lines[..|lines| - 1], kind) + (if Classify(lines[|lines| - 1]) == kind then 1 else 0)
  }

  /** The lines that are not dropped, in order. */
  function Kept(lines: seq<string>): seq<string>
  {
    if |lines| == 0 then []
    else Kept(lines[..|lines| - 1]) + (if Classify(lines[|lines| - 1]) != DroppedLine then [lines[|lines| - 1]] else [])
  }

  /** The lines of all messages, concatenated. */
  function FlattenLines(ms: seq<Message>): seq<string>
  {
    if |ms| == 0 then [] else FlattenLines(ms[..|ms| - 1]) + ms[|ms| - 1].lines
  }

  /** A message as parse_chat builds it: its first line is a header line
      that yields the message itself (same user, timestamp and body), and
      every further line is a continuation line. */
  predicate Assembled(m: Message, numbers: map<string, string>, parseDate: DateParser)
  {
    && |m.lines| >= 1
    && FromLine(m.lines[0], numbers, parseDate) == Ok(Some(m.(lines := [m.lines[0]])))
    && (forall j :: 1 <= j < |m.lines| ==> Classify(m.lines[j]) == ContinuationLine)
  }

  /** Every line is a header line, a continuation line or dropped. */
  lemma {:induction false} LinePartition(lines: seq<string>)
    ensures |lines| == CountKind(lines, HeaderLine) + CountKind(lines, ContinuationLine) + CountKind(lines, DroppedLine)
    ensures |Kept(lines)| == CountKind(lines, HeaderLine) + CountKind(lines, ContinuationLine)
    decreases |lines|
  {
    if |lines| > 0 {
      LinePartition(lines[..|lines| - 1]);
    }
  }

  /** Without a fault, the reference makes one message per header line. */
  lemma {:induction false} SplitMessagesCount(lines: seq<string>, numbers: map<string, string>, parseDate: DateParser)
    requires SplitMessages(lines, numbers, parseDate).Ok?
    ensures |SplitMessages(lines, numbers, parseDate).value| == CountKind(lines, HeaderLine)
    decreases |lines|
  {
    if |lines| > 0 {
      SplitMessagesCount(lines[..|lines| - 1], numbers, parseDate);
    }
  }

  /** Without a fault, the messages' lines, concatenated, are exactly the
      lines that are not dropped, in their order. */
  lemma {:induction false} SplitMessagesLines(lines: seq<string>, numbers: map<string, string>, parseDate: DateParser)
    requires SplitMessages(lines, numbers, parseDate).Ok?
    ensures FlattenLines(SplitMessages(lines, numbers, parseDate).value) == Kept(lines)
    decreases |lines|
  {
    if |lines| > 0 {
      var prefix := lines[..|lines| - 1];
      var line := lines[|lines| - 1];
      SplitMessagesLines(prefix, numbers, parseDate);
      var ms := SplitMessages(prefix, numbers, parseDate).value;
      match FromLine(line, numbers, parseDate) {
        case Ok(Some(m)) =>
          assert (ms + [m])[..|ms|] == ms;
        case Ok(None) =>
          if IsContinuation(line) {
            FlattenExtend(ms, line);
          }
      }
    }
  }

  lemma {:induction false} FlattenExtend(ms: seq<Message>, line: string)
    requires |ms| > 0
    ensures FlattenLines(ms[..|ms| - 1] + [Extend(ms[|ms| - 1], line)]) == FlattenLines(ms) + [line]
  {
    var n := |ms|;
    var ms' := ms[..n - 1] + [Extend(ms[n - 1], line)];
    assert ms'[..n - 1] == ms[..n - 1];
  }

  /** Without a fault, every message is assembled from a header line and
      the continuation lines that follow it. */
  lemma {:induction false} SplitMessagesAssembled(lines: seq<string>, numbers: map<string, string>, parseDate: DateParser)
    requires SplitMessages(lines, numbers, parseDate).Ok?
    ensures var ms := SplitMessages(lines, numbers, parseDate).value;
      forall i :: 0 <= i < |ms| ==> Assembled(ms[i], numbers, parseDate)
    decreases |lines|
  {
    if |lines| > 0 {
      var prefix := lines[..|lines| - 1];
      var line := lines[|lines| - 1];
      SplitMessagesAssembled(prefix, numbers, parseDate);
      var ms := SplitMessages(prefix, numbers, parseDate).value;
      match FromLine(line, numbers, parseDate) {
        case Ok(Some(m)) =>
          assert m.(lines := [m.lines[0]]) == m;
          assert Assembled(m, numbers, parseDate);
          AssembledSnoc(ms, m, numbers, parseDate);
        case Ok(None) =>
          if IsContinuation(line) && |ms| > 0 {
            var pre := ms[..|ms| - 1];
            AssembledExtend(ms[|ms| - 1], line, numbers, parseDate);
            assert forall i :: 0 <= i < |pre| ==> pre[i] == ms[i];
            AssembledSnoc(pre, Extend(ms[|ms| - 1], line), numbers, parseDate);
          }
      }
    }
  }

  lemma {:induction false} AssembledSnoc(ms: seq<Message>, m: Message, numbers: map<string, string>, parseDate: DateParser)
    requires forall i :: 0 <= i < |ms| ==> Assembled(ms[i], numbers, parseDate)
    requires Assembled(m, numbers, parseDate)
    ensures forall i :: 0 <= i < |ms + [m]| ==> Assembled((ms + [m])[i], numbers, parseDate)
  {
    forall i | 0 <= i < |ms + [m]| ensures Assembled((ms + [m])[i], numbers, parseDate) {
      if i < |ms| {
        assert (ms + [m])[i] == ms[i];
      } else {
        assert (ms + [m])[i] == m;
      }
    }
  }

  lemma {:induction false} AssembledExtend(m: Message, line: string, numbers: map<string, string>, parseDate: DateParser)
    requires Assembled(m, numbers, parseDate)
    requires Classify(line) == ContinuationLine
    ensures Assembled(Extend(m, line), numbers, parseDate)
  {
    var m' := Extend(m, line);
    assert m'.lines[0] == m.lines[0];
    assert m'.(lines := [m'.lines[0]]) == m.(lines := [m.lines[0]]);
    forall j | 1 <= j < |m'.lines|
      ensures Classify(m'.lines[j]) == ContinuationLine
    {
      if j < |m.lines| {
        assert m'.lines[j] == m.lines[j];
      }
    }
  }

  /** The line at `i` does not make the parse fail: a header line has a
      date that parses, and a continuation line has a header line before
      it. */
  predicate LineOk(lines: seq<string>, i: nat, parseDate: DateParser)
    requires i < |lines|
  {
    && (Classify(lines[i]) == HeaderLine ==> parseDate(ParseHeader(lines[i]).value.date).Some?)
    && (Classify(lines[i]) == ContinuationLine ==> CountKind(lines[..i], HeaderLine) > 0)
  }

  predicate Faultless(lines: seq<string>, parseDate: DateParser)
  {
    forall i :: 0 <= i < |lines| ==> LineOk(lines, i, parseDate)
  }

  lemma {:induction false} FaultlessSnoc(lines: seq<string>, parseDate: DateParser)
    requires |lines| > 0
    ensures Faultless(lines, parseDate) <==>
      Faultless(lines[..|lines| - 1], parseDate) && LineOk(lines, |lines| - 1, parseDate)
  {
    var prefix := lines[..|lines| - 1];
    forall i | 0 <= i < |prefix|
      ensures LineOk(lines, i, parseDate) == LineOk(prefix, i, parseDate)
    {
      assert prefix[..i] == lines[..i];
    }
  }

  /** The reference (hence parse_chat) succeeds exactly when every header
      line's date parses and no continuation line comes before the first
      header line. */
  lemma {:induction false} SplitMessagesOk(lines: seq<string>, numbers: map<string, string>, parseDate: DateParser)
    ensures SplitMessages(lines, numbers, parseDate).Ok? <==> Faultless(lines, parseDate)
    decreases |lines|
  {
    if |lines| > 0 {
      var prefix := lines[..|lines| - 1];
      SplitMessagesOk(prefix, numbers, parseDate);
      FaultlessSnoc(lines, parseDate);
      if SplitMessages(prefix, numbers, parseDate).Ok? {
        SplitMessagesCount(prefix, numbers, parseDate);
      }
    }
  }

  // ---------------------------------------------------------------------
  // What the reference promises about the grouping.

  /** The names of the messages' users, in order. */
  function UserNames(ms: seq<Message>): (ns: seq<string>)
    ensures |ns| == |ms|
    ensures forall i :: 0 <= i < |ms| ==> ns[i] == ms[i].user.name
  {
    seq(|ms|, i requires 0 <= i < |ms| => ms[i].user.name)
  }

  /** The messages whose user has `name`, in order. */
  function ByName(ms: seq<Message>, name: string): seq<Message>
  {
    if |ms| == 0 then []
    else ByName(ms[..|ms| - 1], name) + (if ms[|ms| - 1].user.name == name then [ms[|ms| - 1]] else [])
  }

  /** All messages of all entries, entry by entry (`all_messages` in stats.py). */
  function AllMessages(groups: seq<Group>): seq<Message>
  {
    if |groups| == 0 then [] else groups[0].messages + AllMessages(groups[1..])
  }

  lemma {:induction false} ByNameAbsent(ms: seq<Message>, name: string)
    requires name !in UserNames(ms)
    ensures ByName(ms, name) == []
    decreases |ms|
  {
    if |ms| > 0 {
      assert UserNames(ms[..|ms| - 1]) == UserNames(ms)[..|ms| - 1];
      assert UserNames(ms)[|ms| - 1] == ms[|ms| - 1].user.name;
      ByNameAbsent(ms[..|ms| - 1], name);
    }
  }

  lemma {:induction false} AllMessagesAppend(groups: seq<Group>, g: Group)
    ensures AllMessages(groups + [g]) == AllMessages(groups) + g.messages
    decreases |groups|
  {
    if |groups| == 0 {
      assert groups + [g] == [g];
      assert [g][1..] == [];
    } else {
      assert (groups + [g])[1..] == groups[1..] + [g];
      AllMessagesAppend(groups[1..], g);
    }
  }

  lemma {:induction false} AllMessagesUpdate(groups: seq<Group>, k: nat, m: Message)
    requires k < |groups|
    ensures multiset(AllMessages(groups[k := Group(groups[k].user, groups[k].messages + [m])]))
         == multiset(AllMessages(groups)) + multiset{m}
    decreases k
  {
    var g' := groups[k := Group(groups[k].user, groups[k].messages + [m])];
    if k == 0 {
      assert g'[1..] == groups[1..];
    } else {
      assert g'[1..] == groups[1..][k - 1 := Group(groups[k].user, groups[k].messages + [m])];
      AllMessagesUpdate(groups[1..], k - 1, m);
    }
  }

  /** The grouping keeps one entry per user name, in order of first
      appearance. */
  lemma {:induction false} GroupByUserNames(ms: seq<Message>)
    ensures Names(GroupByUser(ms)) == Distinct(UserNames(ms))
    decreases |ms|
  {
    if |ms| > 0 {
      var pre := ms[..|ms| - 1];
      var m := ms[|ms| - 1];
      GroupByUserNames(pre);
      var g0 := GroupByUser(pre);
      var g := GroupByUser(ms);
      var k := IndexOf(g0, m.user);
      assert UserNames(ms)[..|ms| - 1] == UserNames(pre);
      if k < |g0| {
        assert m.user.name in Names(g0);
        assert forall j :: 0 <= j < |g| ==> Names(g)[j] == Names(g0)[j];
      } else {
        assert m.user.name !in Names(g0);
        assert Names(g) == Names(g0) + [m.user.name];
      }
    }
  }

  /** Each entry holds exactly its user's messages, in order, and is keyed
      by the user of its first message. */
  lemma {:induction false} GroupByUserMembers(ms: seq<Message>)
    ensures var g := GroupByUser(ms);
      forall k :: 0 <= k < |g| ==>
        && g[k].messages == ByName(ms, g[k].user.name)
        && |g[k].messages| > 0
        && g[k].user == g[k].messages[0].user
    decreases |ms|
  {
    if |ms| > 0 {
      var pre := ms[..|ms| - 1];
      var m := ms[|ms| - 1];
      GroupByUserMembers(pre);
      GroupByUserNames(pre);
      var g0 := GroupByUser(pre);
      var g := GroupByUser(ms);
      var k := IndexOf(g0, m.user);
      assert NoDups(Names(g0));
      if k == |g0| {
        assert UserNames(pre) == UserNames(ms)[..|ms| - 1];
        assert m.user.name !in Names(g0);
        ByNameAbsent(pre, m.user.name);
      }
      forall j | 0 <= j < |g|
        ensures g[j].messages == ByName(ms, g[j].user.name)
        ensures |g[j].messages| > 0 && g[j].user == g[j].messages[0].user
      {
        if j != k && j < |g0| {
          assert Names(g0)[j] != m.user.name;
        }
      }
    }
  }

  /** Together the entries hold exactly the messages grouped. */
  lemma {:induction false} GroupByUserMultiset(ms: seq<Message>)
    ensures multiset(AllMessages(GroupByUser(ms))) == multiset(ms)
    decreases |ms|
  {
    if |ms| > 0 {
      var pre := ms[..|ms| - 1];
      var m := ms[|ms| - 1];
      GroupByUserMultiset(pre);
      var g0 := GroupByUser(pre);
      var k := IndexOf(g0, m.user);
      assert ms == pre + [m];
      if k < |g0| {
        AllMessagesUpdate(g0, k, m);
      } else {
        AllMessagesAppend(g0, Group(m.user, [m]));
      }
    }
  }

  // ---------------------------------------------------------------------
  // parse_chat.

  /** `Message.parse_chat`: the entries of `grouped_messages`. */
  function ParseChat(lines: seq<string>, numbers: map<string, string>, parseDate: DateParser)
    : Result<seq<Group>>
  {
    match ParseLines(lines, numbers, parseDate)
    case Err(f) => Err(f)
    case Ok(st) => Ok(st.groups)
  }

  /** parse_chat succeeds exactly when no header line has a bad date and
      no continuation line precedes the first header line. Then: there is
      one entry per distinct user name, in order of first appearance, each
      holding exactly that user's messages in transcript order; the entries
      together hold one message per header line and one line per header or
      continuation line. */
  lemma {:induction false} ParseChatSpec(lines: seq<string>, numbers: map<string, string>, parseDate: DateParser)
    ensures ParseChat(lines, numbers, parseDate).Ok? <==> Faultless(lines, parseDate)
    ensures ParseChat(lines, numbers, parseDate).Ok? ==>
      SplitMessages(lines, numbers, parseDate).Ok? &&
      var g := ParseChat(lines, numbers, parseDate).value;
      var ms := SplitMessages(lines, numbers, parseDate).value;
      && NoDups(Names(g))
      && Names(g) == Distinct(UserNames(ms))
      && (forall k :: 0 <= k < |g| ==> g[k].messages == ByName(ms, g[k].user.name))
      && (forall k :: 0 <= k < |g| ==> |g[k].messages| > 0 && g[k].user == g[k].messages[0].user)
      && (forall m :: m in AllMessages(g) ==> Assembled(m, numbers, parseDate))
      && |AllMessages(g)| == CountKind(lines, HeaderLine)
      && SumBy(AllMessages(g), NumLines) == CountKind(lines, HeaderLine) + CountKind(lines, ContinuationLine)
  {
    ParseLinesIsReference(lines, numbers, parseDate);
    SplitMessagesOk(lines, numbers, parseDate);
    if ParseChat(lines, numbers, parseDate).Ok? {
      var ms := SplitMessages(lines, numbers, parseDate).value;
      var g := GroupByUser(ms);
      SplitMessagesCount(lines, numbers, parseDate);
      SplitMessagesLines(lines, numbers, parseDate);
      SplitMessagesAssembled(lines, numbers, parseDate);
      GroupByUserNames(ms);
      GroupByUserMembers(ms);
      GroupByUserMultiset(ms);
      LinePartition(lines);
      assert |multiset(AllMessages(g))| == |multiset(ms)|;
      forall m | m in AllMessages(g)
        ensures Assembled(m, numbers, parseDate)
      {
        assert m in multiset(ms);
      }
      SumByPermutation(AllMessages(g), ms, NumLines);
      FlattenLinesLength(ms);
    }
  }

  lemma {:induction false} FlattenLinesLength(ms: seq<Message>)
    ensures |FlattenLines(ms)| == SumBy(ms, NumLines)
    decreases |ms|
  {
    if |ms| > 0 {
      var pre := ms[..|ms| - 1];
      FlattenLinesLength(pre);
      assert ms == pre + [ms[|ms| - 1]];
      SumByConcat(pre, [ms[|ms| - 1]], NumLines);
      assert SumBy([ms[|ms| - 1]], NumLines) == NumLines(ms[|ms| - 1]) + SumBy([], NumLines);
    }
  }
}

=== FILE: common.dfy ===
/** Failure-carrying wrappers shared by every part of the model.

    The program signals its faults by raising (a malformed timestamp, a
    continuation line with no message to attach to, a reduction over an
    empty message list); the model returns them as values instead. */
module Common {

  /** Python's `None`-or-value. */
  datatype Option<+T> = None | Some(value: T)

  /** The faults that abort a run. */
  datatype Fault =
    | MalformedTimestamp(text: string)  // the date capture of a header line does not parse
    | NoPreviousMessage                 // a continuation line before any header line
    | EmptyMessageList                  // min/max/first element of an empty message list

  datatype Result<+T> = Ok(value: T) | Err(fault: Fault) {

    predicate IsFailure() {
      Err?
    }

    function PropagateFailure<U>(): Result<U>
      requires Err?
    {
      Err(fault)
    }

    function Extract(): T
      requires Ok?
    {
      value
    }
  }
}

=== FILE: headers.dfy ===
/** The header pattern of message.py,
    `.*?\[(?P<date>.+?)\] (?P<user>.+?): (?P<message>.+)`, applied with
    `re.match` (anchored at the start of the line only).

    A match cuts the line as `prefix "[" date "] " user ": " body ...`
    where the prefix, the date and the user contain no newline (`.` does
    not match one), the date and the user are non-empty and the body
    starts with a character other than a newline. The lazy quantifiers
    make the engine take the first such cut: shortest prefix, then
    shortest date, then shortest user. */
module Headers {
  import opened Common

  /** Where a header line is cut: positions of the `[`, of the `]` that
      ends the date, and of the `:` that ends the sender. */
  datatype Split = Split(open: nat, close: nat, colon: nat)

  /** The three captures of a header line. */
  datatype Header = Header(date: string, sender: string, body: string)

  predicate NoNewline(s: string)
  {
    '\n' !in s
  }

  predicate OpenAt(line: string, o: int)
  {
    0 <= o < |line| && line[o] == '['
  }

  /** `"] "` at `c`. */
  predicate CloseAt(line: string, c: int)
  {
    0 <= c && c + 1 < |line| && line[c] == ']' && line[c + 1] == ' '
  }

  /** `": "` at `u`, followed by a first body character. */
  predicate ColonAt(line: string, u: int)
  {
    0 <= u && u + 2 < |line| && line[u] == ':' && line[u + 1] == ' ' && line[u + 2] != '\n'
  }

  /** The part of a cut after the `[`: a non-empty newline-free sender
      between `"] "` and `": "`. */
  predicate TailOk(line: string, sp: Split)
  {
    && CloseAt(line, sp.close) && ColonAt(line, sp.colon)
    && sp.close + 3 <= sp.colon
    && NoNewline(line[sp.close + 2..sp.colon])
  }

  /** A cut whose `[` is at or after `p`, with no newline between `p` and
      the `[` and a non-empty newline-free date. */
  predicate ViableFrom(line: string, p: nat, sp: Split)
  {
    && TailOk(line, sp)
    && OpenAt(line, sp.open) && p <= sp.open
    && sp.open + 2 <= sp.close
    && NoNewline(line[p..sp.open])
    && NoNewline(line[sp.open + 1..sp.close])
  }

  /** A cut the pattern can match. */
  predicate Viable(line: string, sp: Split)
  {
    ViableFrom(line, 0, sp)
  }

  /** Lexicographic order on cuts: the order in which the engine tries them. */
  predicate SplitLe(a: Split, b: Split)
  {
    || a.open < b.open
    || (a.open == b.open && a.close < b.close)
    || (a.open == b.open && a.close == b.close && a.colon <= b.colon)
  }

  /** The lazy sender `.+?`: tries `": "` at `u`, `u + 1`, ... and stops
      at a newline. */
  function SearchColon(line: string, o: nat, c: nat, u: nat): (r: Option<Split>)
    requires c + 3 <= u <= |line|
    ensures r.Some? ==> r.value.open == o && r.value.close == c && u <= r.value.colon
    ensures r.Some? ==> ColonAt(line, r.value.colon) && NoNewline(line[u..r.value.colon])
    decreases |line| - u
  {
    if u == |line| then None
    else if ColonAt(line, u) then Some(Split(o, c, u))
    else if line[u] == '\n' then None
    else
      var r := SearchColon(line, o, c, u + 1);
      assert r.Some? ==> line[u..r.value.colon] == [line[u]] + line[u + 1..r.value.colon];
      r
  }

  /** The lazy date `.+?`: tries `"] "` at `c`, `c + 1`, ..., and for each
      the sender search; stops at a newline. */
  function SearchClose(line: string, o: nat, c: nat): (r: Option<Split>)
    requires o + 2 <= c <= |line|
    ensures r.Some? ==> r.value.open == o && c <= r.value.close && TailOk(line, r.value)
    ensures r.Some? ==> NoNewline(line[c..r.value.close])
    decreases |line| - c
  {
    if c == |line| then None
    else
      var here :=
        if CloseAt(line, c) && c + 2 < |line| && line[c + 2] != '\n' then SearchColon(line, o, c, c + 3)
        else None;
      if here.Some? then
        assert line[c + 2..here.value.colon] == [line[c + 2]] + line[c + 3..here.value.colon];
        here
      else if line[c] == '\n' then None
      else
        var r := SearchClose(line, o, c + 1);
        assert r.Some? ==> line[c..r.value.close] == [line[c]] + line[c + 1..r.value.close];
        r
  }

  /** The lazy prefix `.*?`: tries `[` at `p`, `p + 1`, ..., and for each
      the date search; stops at a newline. */
  function SearchOpen(line: string, p: nat): (r: Option<Split>)
    requires p <= |line|
    ensures r.Some? ==> ViableFrom(line, p, r.value)
    decreases |line| - p
  {
    if p == |line| then None
    else
      var here :=
        if OpenAt(line, p) && p + 1 < |line| && line[p + 1] != '\n' then SearchClose(line, p, p + 2)
        else None;
      if here.Some? then
        assert line[p + 1..here.value.close] == [line[p + 1]] + line[p + 2..here.value.close];
        assert line[p..p] == [];
        here
      else if line[p] == '\n' then None
      else
        var r := SearchOpen(line, p + 1);
        assert r.Some? ==> line[p..r.value.open] == [line[p]] + line[p + 1..r.value.open];
        r
  }

  /** The first cut the engine finds, if any. */
  function FindSplit(line: string): (r: Option<Split>)
    ensures r.Some? ==> Viable(line, r.value)
  {
    SearchOpen(line, 0)
  }

  /** End of the greedy body `.+`: the first newline at or after `i`, or
      the end of the line. */
  function LineEnd(line: string, i: nat): (e: nat)
    requires i <= |line|
    ensures i <= e <= |line|
    ensures NoNewline(line[i..e])
    ensures e < |line| ==> line[e] == '\n'
    decreases |line| - i
  {
    if i == |line| || line[i] == '\n' then i
    else
      var e := LineEnd(line, i + 1);
      assert line[i..e] == [line[i]] + line[i + 1..e];
      e
  }

  /** `FULL_MESSAGE_REGEX.match(line)`: the date, sender and body captures
      of the first cut, each non-empty and without newline. */
  function ParseHeader(line: string): (r: Option<Header>)
    ensures r.Some? ==> |r.value.date| > 0 && NoNewline(r.value.date)
    ensures r.Some? ==> |r.value.sender| > 0 && NoNewline(r.value.sender)
    ensures r.Some? ==> |r.value.body| > 0 && NoNewline(r.value.body)
  {
    match FindSplit(line)
    case None => None
    case Some(sp) =>
      var e := LineEnd(line, sp.colon + 2);
      assert line[sp.colon + 2..e] == [line[sp.colon + 2]] + line[sp.colon + 3..e];
      Some(Header(line[sp.open + 1..sp.close], line[sp.close + 2..sp.colon], line[sp.colon + 2..e]))
  }

  // ---------------------------------------------------------------------
  // The engine finds the least viable cut.

  lemma {:induction false} SearchColonLeast(line: string, o: nat, c: nat, u: nat)
    requires c + 3 <= u <= |line|
    ensures forall w :: u <= w && ColonAt(line, w) && NoNewline(line[u..w]) ==>
              SearchColon(line, o, c, u).Some? && SearchColon(line, o, c, u).value.colon <= w
    decreases |line| - u
  {
    if u < |line| && !ColonAt(line, u) {
      forall w | u <= w && ColonAt(line, w) && NoNewline(line[u..w])
        ensures SearchColon(line, o, c, u).Some? && SearchColon(line, o, c, u).value.colon <= w
      {
        assert w != u;
        assert line[u] == line[u..w][0];
        assert line[u + 1..w] == line[u..w][1..];
        SearchColonLeast(line, o, c, u + 1);
      }
    }
  }

  lemma {:induction false} SearchCloseLeast(line: string, o: nat, c: nat)
    requires o + 2 <= c <= |line|
    ensures forall sp :: TailOk(line, sp) && sp.open == o && c <= sp.close && NoNewline(line[c..sp.close]) ==>
              SearchClose(line, o, c).Some? && SplitLe(SearchClose(line, o, c).value, sp)
    decreases |line| - c
  {
    if c < |line| {
      var here :=
        if CloseAt(line, c) && c + 2 < |line| && line[c + 2] != '\n' then SearchColon(line, o, c, c + 3)
        else None;
      forall sp | TailOk(line, sp) && sp.open == o && c <= sp.close && NoNewline(line[c..sp.close])
        ensures SearchClose(line, o, c).Some? && SplitLe(SearchClose(line, o, c).value, sp)
      {
        if sp.close == c {
          assert line[c + 2] == line[c + 2..sp.colon][0];
          assert line[c + 3..sp.colon] == line[c + 2..sp.colon][1..];
          SearchColonLeast(line, o, c, c + 3);
        } else if here.None? {
          assert line[c] == line[c..sp.close][0];
          assert line[c + 1..sp.close] == line[c..sp.close][1..];
          SearchCloseLeast(line, o, c + 1);
        }
      }
    }
  }

  lemma {:induction false} SearchOpenLeast(line: string, p: nat)
    requires p <= |line|
    ensures forall sp :: ViableFrom(line, p, sp) ==>
              SearchOpen(line, p).Some? && SplitLe(SearchOpen(line, p).value, sp)
    decreases |line| - p
  {
    if p < |line| {
      var here :=
        if OpenAt(line, p) && p + 1 < |line| && line[p + 1] != '\n' then SearchClose(line, p, p + 2)
        else None;
      forall sp | ViableFrom(line, p, sp)
        ensures SearchOpen(line, p).Some? && SplitLe(SearchOpen(line, p).value, sp)
      {
        if sp.open == p {
          assert line[p + 1] == line[p + 1..sp.close][0];
          assert line[p + 2..sp.close] == line[p + 1..sp.close][1..];
          SearchCloseLeast(line, p, p + 2);
          assert here.Some?;
          assert SearchOpen(line, p) == here;
        } else if here.None? {
          assert line[p] == line[p..sp.open][0];
          assert line[p + 1..sp.open] == line[p..sp.open][1..];
          SearchOpenLeast(line, p + 1);
          assert ViableFrom(line, p + 1, sp);
          assert SearchOpen(line, p) == SearchOpen(line, p + 1);
        } else {
          assert SearchOpen(line, p) == here;
        }
      }
    }
  }

  /** The line is a header line exactly when some cut is viable, and then
      the cut taken is the least viable one. */
  lemma {:induction false} FindSplitLeast(line: string)
    ensures forall sp :: Viable(line, sp) ==> FindSplit(line).Some? && SplitLe(FindSplit(line).value, sp)
  {
    SearchOpenLeast(line, 0);
  }

  /** A header line decomposes as `prefix "[" date "] " sender ": " body
      rest`, with a newline-free prefix and with `rest` empty or starting
      at a newline. */
  lemma {:induction false} HeaderDecomposition(line: string)
    requires ParseHeader(line).Some?
    ensures exists prefix, rest :: DecomposesAs(line, ParseHeader(line).value, prefix, rest)
  {
    var sp := FindSplit(line).value;
    var e := LineEnd(line, sp.colon + 2);
    Assemble(line, sp, e, ParseHeader(line).value);
  }

  /** The captures of a viable cut, with the body running to `e`, put back
      together give the line. */
  lemma {:induction false} Assemble(line: string, sp: Split, e: nat, h: Header)
    requires Viable(line, sp)
    requires sp.colon + 2 <= e <= |line| && (e == |line| || line[e] == '\n')
    requires h == Header(line[sp.open + 1..sp.close], line[sp.close + 2..sp.colon], line[sp.colon + 2..e])
    ensures exists prefix, rest :: DecomposesAs(line, h, prefix, rest)
  {
    var prefix := line[..sp.open];
    var rest := line[e..];
    assert line[0..sp.open] == prefix;
    AssembleTail(line, sp, e, h.sender, h.body);
    AssembleHead(line, sp.open, sp.close, h.date);
    Decomposed(line, h, prefix, rest);
  }

  /** The line up to the `"] "`, put back together. */
  lemma {:induction false} AssembleHead(line: string, open: nat, close: nat, date: string)
    requires open < close <= |line|
    requires line[open] == '['
    requires date == line[open + 1..close]
    ensures line == line[..open] + ("[" + (date + line[close..]))
  {
    assert line[open + 1..] == date + line[close..] by {
      SliceSplit(line, open + 1, close);
    }
    assert line[open..] == "[" + line[open + 1..] by {
      SliceSplit(line, open, open + 1);
      assert line[open..open + 1] == "[";
    }
    SliceSplit(line, 0, open);
    assert line == line[0..];
  }

  /** The part of the line from the `"] "` on, put back together. */
  lemma {:induction false} AssembleTail(line: string, sp: Split, e: nat, sender: string, body: string)
    requires sp.close + 2 <= sp.colon && sp.colon + 2 <= e <= |line|
    requires line[sp.close] == ']' && line[sp.close + 1] == ' ' && line[sp.colon] == ':' && line[sp.colon + 1] == ' '
    requires sender == line[sp.close + 2..sp.colon] && body == line[sp.colon + 2..e]
    ensures line[sp.close..] == "] " + (sender + (": " + (body + line[e..])))
  {
    var t0 := body + line[e..];
    assert line[sp.colon + 2..] == t0 by {
      SliceSplit(line, sp.colon + 2, e);
    }
    var t1 := ": " + t0;
    assert line[sp.colon..] == t1 by {
      SliceSplit(line, sp.colon, sp.colon + 2);
      assert line[sp.colon..sp.colon + 2] == ": ";
    }
    var t2 := sender + t1;
    assert line[sp.close + 2..] == t2 by {
      SliceSplit(line, sp.close + 2, sp.colon);
    }
    SliceSplit(line, sp.close, sp.close + 2);
    assert line[sp.close..sp.close + 2] == "] ";
  }

  lemma {:induction false} SliceSplit(s: string, i: nat, j: nat)
    requires i <= j <= |s|
    ensures s[i..] == s[i..j] + s[j..]
  {
  }

  predicate DecomposesAs(line: string, h: Header, prefix: string, rest: string)
  {
    && NoNewline(prefix) && (|rest| == 0 || rest[0] == '\n')
    && line == prefix + "[" + h.date + "] " + h.sender + ": " + h.body + rest
  }

  lemma {:induction false} Decomposed(line: string, h: Header, prefix: string, rest: string)
    requires NoNewline(prefix) && (|rest| == 0 || rest[0] == '\n')
    requires line == prefix + ("[" + (h.date + ("] " + (h.sender + (": " + (h.body + rest))))))
    ensures exists p, r :: DecomposesAs(line, h, p, r)
  {
    ConcatAssoc(prefix, h.date, h.sender, h.body, rest);
    assert DecomposesAs(line, h, prefix, rest);
  }

  /** Re-bracketing of the decomposition's concatenation. */
  lemma {:induction false} ConcatAssoc(prefix: string, date: string, sender: string, body: string, rest: string)
    ensures prefix + ("[" + (date + ("] " + (sender + (": " + (body + rest)))))) ==
            prefix + "[" + date + "] " + sender + ": " + body + rest
  {
  }

  /** A header line contains a `[`. */
  lemma {:induction false} HeaderHasBracket(line: string)
    requires ParseHeader(line).Some?
    ensures '[' in line
  {
    var sp := FindSplit(line).value;
    assert line[sp.open] == '[';
  }
}

=== FILE: messages.dfy ===
/** `Message` (message.py): one logical chat message, its header parsing,
    the continuation test and the derived `text`, `num_lines` and
    `num_characters`. */
module Messages {
  import opened Common
  import opened Strings
  import opened Users
  import opened Headers

  /** A parsed timestamp: the calendar day as an ordinal (`.date()`) and
      the time of day. */
  datatype Stamp = Stamp(day: int, time: int)

  /** Chronological order of timestamps. */
  predicate StampLe(a: Stamp, b: Stamp)
  {
    a.day < b.day || (a.day == b.day && a.time <= b.time)
  }

  /** `_text` holds the header line as read followed by its continuation
      lines; `body` is the `message` capture of the header line. */
  datatype Message = Message(lines: seq<string>, body: string, stamp: Stamp, user: User)

  /** `pendulum.from_format(date, 'DD/MM/YYYY, HH:mm:ss')`, supplied by
      the caller: `None` when the text does not parse. */
  type DateParser = string -> Option<Stamp>

  /** `Message.from_line`: `None` for a line that is not a header line; a
      fault when the date capture does not parse; otherwise a message
      whose only line is the WHOLE original line (not just the body),
      with the user resolved from the sender capture. */
  function FromLine(line: string, numbers: map<string, string>, parseDate: DateParser): (r: Result<Option<Message>>)
    ensures ParseHeader(line).None? ==> r == Ok(None)
    ensures ParseHeader(line).Some? ==> var h := ParseHeader(line).value;
      && (r.Err? <==> parseDate(h.date).None?)
      && (r.Err? ==> r.fault == MalformedTimestamp(h.date))
      && (r.Ok? ==> r.value.Some? && r.value.value.lines == [line] && r.value.value.body == h.body
                    && r.value.value.user == Resolve(h.sender, numbers)
                    && r.value.value.stamp == parseDate(h.date).value)
  {
    match ParseHeader(line)
    case None => Ok(None)
    case Some(h) =>
      match parseDate(h.date)
      case None => Err(MalformedTimestamp(h.date))
      case Some(stamp) => Ok(Some(Message([line], h.body, stamp, Resolve(h.sender, numbers))))
  }

  /** `LINE_CONTINUATION_REGEX = ^[^\[\]]+$`: a non-empty line without
      square brackets. (The `$` may also match before a final newline,
      which a bracket-free line reaches anyway.) */
  predicate IsContinuation(line: string)
  {
    |line| > 0 && '[' !in line && ']' !in line
  }

  /** What `parse_chat` does with a line. */
  datatype LineKind = HeaderLine | ContinuationLine | DroppedLine

  /** `parse_chat` tries the header pattern first and the continuation
      pattern second; since a header line always contains `[`, the two
      classes are disjoint and the order of the tests does not matter. */
  function Classify(line: string): (k: LineKind)
    ensures k == HeaderLine <==> ParseHeader(line).Some?
    ensures k == ContinuationLine <==> IsContinuation(line)
    ensures k == DroppedLine <==> ParseHeader(line).None? && !IsContinuation(line)
  {
    if ParseHeader(line).Some? then
      HeaderHasBracket(line);
      HeaderLine
    else if IsContinuation(line) then ContinuationLine
    else DroppedLine
  }

  /** `previous_message._text.append(line)`. */
  function Extend(m: Message, line: string): (m': Message)
    ensures m'.lines == m.lines + [line]
    ensures m'.user == m.user && m'.stamp == m.stamp && m'.body == m.body
  {
    m.(lines := m.lines + [line])
  }

  /** `text`: the lines joined by newlines. */
  function Text(m: Message): string
  {
    Join(m.lines, "\n")
  }

  /** `num_lines`. */
  function NumLines(m: Message): nat
  {
    |m.lines|
  }

  /** `num_characters`: the lengths of the lines, without the newlines
      `text` puts between them. */
  function NumCharacters(m: Message): nat
  {
    TotalLength(m.lines)
  }

  /** A message has at least one line. */
  predicate WellFormed(m: Message)
  {
    |m.lines| >= 1
  }

  /** `text` is `num_characters` characters plus one newline between
      each pair of neighbouring lines. */
  lemma {:induction false} TextLength(m: Message)
    requires WellFormed(m)
    ensures |Text(m)| == NumCharacters(m) + NumLines(m) - 1
  {
    JoinLength(m.lines, "\n");
  }

  /** When no line carries a newline, splitting `text` at newlines gives
      the lines back. Lines read with `readlines` keep their trailing
      newline, so this covers single-line messages and lines stripped of
      it; that the lines of a transcript survive parsing in order is
      `ChatParser.SplitMessagesLines`. */
  lemma {:induction false} TextRoundTrip(m: Message)
    requires WellFormed(m)
    requires forall k :: 0 <= k < |m.lines| ==> '\n' !in m.lines[k]
    ensures SplitOn(Text(m), '\n') == m.lines
  {
    SplitJoin(m.lines, '\n');
  }

  /** Appending a continuation line adds one line, its characters, and a
      newline followed by the line to `text`. */
  lemma {:induction false} ExtendCounts(m: Message, line: string)
    requires WellFormed(m)
    ensures WellFormed(Extend(m, line))
    ensures NumLines(Extend(m, line)) == NumLines(m) + 1
    ensures NumCharacters(Extend(m, line)) == NumCharacters(m) + |line|
    ensures Text(Extend(m, line)) == Text(m) + "\n" + line
  {
    JoinSnoc(m.lines, line, "\n");
    TotalLengthSnoc(m.lines, line);
  }

  lemma {:induction false} JoinSnoc(parts: seq<string>, last: string, sep: string)
    requires |parts| > 0
    ensures Join(parts + [last], sep) == Join(parts, sep) + sep + last
    decreases |parts|
  {
    if |parts| == 1 {
      assert parts + [last] == [parts[0], last];
      assert [parts[0], last][1..] == [last];
    } else {
      assert (parts + [last])[1..] == parts[1..] + [last];
      JoinSnoc(parts[1..], last, sep);
    }
  }

  lemma {:induction false} TotalLengthSnoc(parts: seq<string>, last: string)
    ensures TotalLength(parts + [last]) == TotalLength(parts) + |last|
    decreases |parts|
  {
    if |parts| == 0 {
      assert parts + [last] == [last];
      assert [last][1..] == [];
    } else {
      assert (parts + [last])[1..] == parts[1..] + [last];
      TotalLengthSnoc(parts[1..], last);
    }
  }

  /** Sum of `f` over a list of messages. */
  function SumBy(ms: seq<Message>, f: Message -> nat): nat
  {
    if |ms| == 0 then 0 else f(ms[0]) + SumBy(ms[1..], f)
  }

  lemma {:induction false} SumByConcat(a: seq<Message>, b: seq<Message>, f: Message -> nat)
    ensures SumBy(a + b, f) == SumBy(a, f) + SumBy(b, f)
    decreases |a|
  {
    if |a| == 0 {
      assert a + b == b;
    } else {
      assert (a + b)[1..] == a[1..] + b;
      SumByConcat(a[1..], b, f);
    }
  }

  /** A sum over messages does not depend on their order. */
  lemma {:induction false} SumByPermutation(a: seq<Message>, b: seq<Message>, f: Message -> nat)
    requires multiset(a) == multiset(b)
    ensures SumBy(a, f) == SumBy(b, f)
    decreases |a|
  {
    if |a| == 0 {
      assert |multiset(b)| == 0;
    } else {
      var x := a[0];
      assert x in multiset(b);
      var i :| 0 <= i < |b| && b[i] == x;
      var rest := b[..i] + b[i + 1..];
      RemoveAt(b, i, f);
      assert a == [x] + a[1..];
      assert multiset(a[1..]) == multiset(a) - multiset{x};
      SumByPermutation(a[1..], rest, f);
    }
  }

  /** Taking out the message at `i`: its value leaves the sum and one copy
      leaves the multiset. */
  lemma {:induction false} RemoveAt(b: seq<Message>, i: nat, f: Message -> nat)
    requires i < |b|
    ensures SumBy(b, f) == f(b[i]) + SumBy(b[..i] + b[i + 1..], f)
    ensures multiset(b[..i] + b[i + 1..]) == multiset(b) - multiset{b[i]}
  {
    var x := b[i];
    assert b == b[..i] + [x] + b[i + 1..];
    assert b[..i] + [x] + b[i + 1..] == b[..i] + ([x] + b[i + 1..]);
    SumByConcat(b[..i], [x] + b[i + 1..], f);
    SumByConcat(b[..i], b[i + 1..], f);
    assert ([x] + b[i + 1..])[1..] == b[i + 1..];
  }
}

=== FILE: ordering.dfy ===
/** Ordering of integer pairs and the two uses the program makes of it:
    `sorted(...)` of (date, count) pairs and `top(...)` (utils.py) of
    (count, key) pairs. */
module Ordering {

  /** A 2-tuple of integers, compared as Python compares tuples. */
  type Pair = (int, int)

  /** Lexicographic `a <= b`: first component, then second. */
  predicate PairLe(a: Pair, b: Pair)
  {
    a.0 < b.0 || (a.0 == b.0 && a.1 <= b.1)
  }

  predicate Ascending(s: seq<Pair>)
  {
    forall i, j :: 0 <= i < j < |s| ==> PairLe(s[i], s[j])
  }

  predicate Descending(s: seq<Pair>)
  {
    forall i, j :: 0 <= i < j < |s| ==> PairLe(s[j], s[i])
  }

  /** Sum of the second components (the counts of (key, count) pairs). */
  function SumSnd(s: seq<Pair>): int
  {
    if |s| == 0 then 0 else s[0].1 + SumSnd(s[1..])
  }

  function Min(a: int, b: int): int
  {
    if a <= b then a else b
  }

  /** Inserts `x` into an ascending sequence, keeping it ascending. */
  function InsertAsc(x: Pair, s: seq<Pair>): (r: seq<Pair>)
    requires Ascending(s)
    ensures Ascending(r)
    ensures multiset(r) == multiset(s) + multiset{x}
    ensures SumSnd(r) == SumSnd(s) + x.1
  {
    if |s| == 0 then [x]
    else if PairLe(x, s[0]) then
      assert ([x] + s)[1..] == s;
      [x] + s
    else
      var rest := InsertAsc(x, s[1..]);
      assert s == [s[0]] + s[1..];
      LowerBound(s[0], x, s[1..], rest);
      assert ([s[0]] + rest)[1..] == rest;
      [s[0]] + rest
  }

  /** A lower bound of `x` and of every element of `s` is a lower bound of
      every element of a rearrangement of `s` with `x` added. */
  lemma {:induction false} LowerBound(lo: Pair, x: Pair, s: seq<Pair>, r: seq<Pair>)
    requires PairLe(lo, x)
    requires forall i :: 0 <= i < |s| ==> PairLe(lo, s[i])
    requires multiset(r) == multiset(s) + multiset{x}
    ensures forall j :: 0 <= j < |r| ==> PairLe(lo, r[j])
  {
    forall j | 0 <= j < |r|
      ensures PairLe(lo, r[j])
    {
      assert r[j] in multiset(r);
      if r[j] != x {
        assert r[j] in multiset(s);
        assert r[j] in s;
      }
    }
  }

  /** Python's `sorted(s)` on pairs. */
  function SortAsc(s: seq<Pair>): (r: seq<Pair>)
    ensures Ascending(r)
    ensures multiset(r) == multiset(s)
    ensures |r| == |s|
    ensures SumSnd(r) == SumSnd(s)
  {
    if |s| == 0 then []
    else
      assert s == [s[0]] + s[1..];
      InsertAsc(s[0], SortAsc(s[1..]))
  }

  /** Python's `list(reversed(s))`. */
  function Reverse(s: seq<Pair>): (r: seq<Pair>)
    ensures |r| == |s|
    ensures forall i :: 0 <= i < |s| ==> r[i] == s[|s| - 1 - i]
    ensures multiset(r) == multiset(s)
  {
    if |s| == 0 then []
    else
      assert s == [s[0]] + s[1..];
      Reverse(s[1..]) + [s[0]]
  }

  /** `top(data, limit)` (utils.py): the last `limit` elements of the
      sorted data, largest first. A `limit` of 0 keeps everything, since
      the slice `[-0:]` is the whole list. The result has the expected
      size, is in non-increasing order, is drawn from the data, and no
      element left out is larger than an element kept. */
  function Top(data: seq<Pair>, limit: nat): (r: seq<Pair>)
    ensures |r| == if limit == 0 then |data| else Min(limit, |data|)
    ensures Descending(r)
    ensures multiset(r) <= multiset(data)
    ensures forall x, y :: x in r && y in multiset(data) - multiset(r) ==> PairLe(y, x)
  {
    var sorted := SortAsc(data);
    var k := if limit == 0 then |data| else Min(limit, |data|);
    TopOfSorted(sorted, k);
    Reverse(sorted[|sorted| - k..])
  }

  /** The last `k` elements of an ascending sequence, reversed: descending,
      drawn from the sequence, and dominating what was left behind. */
  lemma {:induction false} TopOfSorted(sorted: seq<Pair>, k: nat)
    requires Ascending(sorted)
    requires k <= |sorted|
    ensures var r := Reverse(sorted[|sorted| - k..]);
      && |r| == k
      && Descending(r)
      && multiset(r) <= multiset(sorted)
      && forall x, y :: x in r && y in multiset(sorted) - multiset(r) ==> PairLe(y, x)
  {
    var tail := sorted[|sorted| - k..];
    var r := Reverse(tail);
    TopFacts(sorted, k);
    ReverseDescending(tail);
    assert multiset(r) == multiset(tail);
    forall x, y | x in r && y in multiset(sorted) - multiset(r) ensures PairLe(y, x) {
      assert x in multiset(r);
    }
  }

  lemma {:induction false} ReverseDescending(s: seq<Pair>)
    requires Ascending(s)
    ensures Descending(Reverse(s))
  {
    var r := Reverse(s);
    forall i, j | 0 <= i < j < |r| ensures PairLe(r[j], r[i]) {
      assert r[j] == s[|s| - 1 - j] && r[i] == s[|s| - 1 - i];
    }
  }

  /** The last `k` elements of an ascending sequence dominate the rest. */
  lemma {:induction false} TopFacts(sorted: seq<Pair>, k: nat)
    requires Ascending(sorted)
    requires k <= |sorted|
    ensures multiset(sorted[|sorted| - k..]) <= multiset(sorted)
    ensures multiset(sorted) - multiset(sorted[|sorted| - k..]) == multiset(sorted[..|sorted| - k])
    ensures forall x, y :: x in sorted[|sorted| - k..] && y in multiset(sorted[..|sorted| - k]) ==> PairLe(y, x)
  {
    var n := |sorted| - k;
    assert sorted == sorted[..n] + sorted[n..];
    assert multiset(sorted) == multiset(sorted[..n]) + multiset(sorted[n..]);
    forall x, y | x in sorted[n..] && y in multiset(sorted[..n])
      ensures PairLe(y, x)
    {
      var i :| 0 <= i < k && sorted[n..][i] == x;
      assert y in sorted[..n];
      var j :| 0 <= j < n && sorted[..n][j] == y;
      assert sorted[j] == y && sorted[n + i] == x;
    }
  }

  /** Pairs whose first components differ pairwise occur at most once. */
  lemma {:induction false} AtMostOnce(t: seq<Pair>)
    requires forall i, j :: 0 <= i < j < |t| ==> t[i].0 != t[j].0
    ensures forall x :: multiset(t)[x] <= 1
    decreases |t|
  {
    if |t| > 0 {
      var pre := t[..|t| - 1];
      AtMostOnce(pre);
      assert t == pre + [t[|t| - 1]];
      assert t[|t| - 1] !in pre;
    }
  }

  /** An element found at two positions occurs at least twice. */
  lemma {:induction false} TwoPositions(s: seq<Pair>, i: nat, j: nat)
    requires i < j < |s|
    ensures s[i] == s[j] ==> multiset(s)[s[i]] >= 2
  {
    assert s == s[..j] + s[j..];
    assert s[i] in s[..j] && s[j] in s[j..];
    assert multiset(s)[s[i]] == multiset(s[..j])[s[i]] + multiset(s[j..])[s[i]];
  }

  /** Among pairs whose first components differ pairwise, a first
      component identifies the pair. */
  lemma {:induction false} KeyIdentifies(t: seq<Pair>, x: Pair, y: Pair)
    requires forall i, j :: 0 <= i < j < |t| ==> t[i].0 != t[j].0
    requires x in t && y in t
    ensures x.0 == y.0 ==> x == y
  {
    var a :| 0 <= a < |t| && t[a] == x;
    var b :| 0 <= b < |t| && t[b] == y;
    assert a != b ==> t[a].0 != t[b].0;
  }

  /** Sorting pairs whose first components differ pairwise orders them
      strictly by first component. */
  lemma {:induction false} SortedByKey(s: seq<Pair>, t: seq<Pair>)
    requires Ascending(s)
    requires multiset(s) == multiset(t)
    requires forall i, j :: 0 <= i < j < |t| ==> t[i].0 != t[j].0
    ensures forall i, j :: 0 <= i < j < |s| ==> s[i].0 < s[j].0
  {
    AtMostOnce(t);
    forall i, j | 0 <= i < j < |s|
      ensures s[i].0 < s[j].0
    {
      assert PairLe(s[i], s[j]);
      assert s[i] in multiset(t) && s[j] in multiset(t);
      KeyIdentifies(t, s[i], s[j]);
      TwoPositions(s, i, j);
    }
  }
}

=== FILE: report.dfy ===
/** `compute_stats` (stats.py): the statistics of every user's messages and
    of all messages together, computed one entry after the other. */
module Report {
  import opened Common
  import opened Tallies
  import opened Messages
  import opened Users
  import opened ChatParser
  import opened Stats
  import opened Activity

  /** The result of `_user_stats` for one list of messages (without
      `sentiment`). */
  datatype UserStats = UserStats(
    start: Stamp,
    end: Stamp,
    numLines: nat,
    numMessages: nat,
    numCharacters: nat,
    emojis: EmojiStats,
    sharing: seq<(string, nat)>,
    activity: ActivityStats)

  /** `{'group': ..., 'users': ...}`: the users' entries in the order of
      the grouped messages. */
  datatype Report = Report(group: UserStats, users: seq<(User, UserStats)>)

  /** `s` is the timestamp of a message of `ms` and no message is earlier. */
  predicate Earliest(s: Stamp, ms: seq<Message>)
  {
    (exists i :: 0 <= i < |ms| && ms[i].stamp == s) && forall i :: 0 <= i < |ms| ==> StampLe(s, ms[i].stamp)
  }

  /** `s` is the timestamp of a message of `ms` and no message is later. */
  predicate Latest(s: Stamp, ms: seq<Message>)
  {
    (exists i :: 0 <= i < |ms| && ms[i].stamp == s) && forall i :: 0 <= i < |ms| ==> StampLe(ms[i].stamp, s)
  }

  /** `_user_stats`: every statistic of `_stat_functions` but
      `sentiment` over one list of messages; `min` fails first on an empty
      list. */
  function ComputeUserStats(ms: seq<Message>, emojiSet: set<char>): (r: Result<UserStats>)
    ensures r.Err? <==> |ms| == 0
    ensures r.Err? ==> r.fault == EmptyMessageList
  {
    if |ms| == 0 then Err(EmptyMessageList)
    else
      Ok(UserStats(Start(ms).value, End(ms).value, TotalLines(ms), |ms|, TotalCharacters(ms),
                   ComputeEmojis(ms, emojiSet), ComputeSharing(ms), ComputeActivity(ms).value))
  }

  /** `start` and `end` are the earliest and latest timestamps, the counts
      are those of the messages, the emoji, sharing and activity entries
      are the ones `Stats` and `Activity` describe, and at least one day
      is active. */
  lemma {:induction false} UserStatsSpec(ms: seq<Message>, emojiSet: set<char>)
    requires |ms| > 0
    ensures var u := ComputeUserStats(ms, emojiSet).value;
      && StampLe(u.start, u.end)
      && Earliest(u.start, ms) && Latest(u.end, ms)
      && u.numMessages == |ms|
      && u.numLines == TotalLines(ms) && u.numCharacters == TotalCharacters(ms)
      && u.emojis == ComputeEmojis(ms, emojiSet)
      && u.sharing == ComputeSharing(ms)
      && u.activity == ComputeActivity(ms).value
      && u.activity.numActiveDays >= 1
  {
    StartNotAfterEnd(ms);
    ActiveDays(ms);
    assert ms[0].stamp.day in Days(ms);
  }

  /** `executor.map(_user_stats, grouped_messages.items())` read as a
      sequential map: one entry per group, in order, keyed by the group's
      user; it fails when the reduction fails on some group. */
  function MapEntries<S>(groups: seq<Group>, f: seq<Message> -> Result<S>): (r: Result<seq<(User, S)>>)
    ensures r.Ok? <==> forall k :: 0 <= k < |groups| ==> f(groups[k].messages).Ok?
    ensures r.Ok? ==> |r.value| == |groups|
    ensures r.Ok? ==> forall k :: 0 <= k < |groups| ==>
      r.value[k] == (groups[k].user, f(groups[k].messages).value)
  {
    if |groups| == 0 then Ok([])
    else
      var first := f(groups[0].messages);
      var rest := MapEntries(groups[1..], f);
      assert forall k :: 1 <= k < |groups| ==> groups[1..][k - 1] == groups[k];
      if first.Err? then Err(first.fault)
      else if rest.Err? then Err(rest.fault)
      else
        var r := [(groups[0].user, first.value)] + rest.value;
        assert forall k :: 1 <= k < |groups| ==> r[k] == rest.value[k - 1];
        Ok(r)
  }

  /** `_user_stats` as the function handed to the map. */
  function Reduce(emojiSet: set<char>): seq<Message> -> Result<UserStats>
  {
    ms => ComputeUserStats(ms, emojiSet)
  }

  /** `compute_stats`: the users' entries and the `group` entry over the
      concatenation of all users' messages. It fails exactly when there is
      no message at all or some user has none. */
  function ComputeStats(groups: seq<Group>, emojiSet: set<char>): (r: Result<Report>)
    ensures r.Ok? <==> |groups| > 0 && forall k :: 0 <= k < |groups| ==> |groups[k].messages| > 0
    ensures r.Err? ==> r.fault == EmptyMessageList
  {
    var users := MapEntries(groups, Reduce(emojiSet));
    var group := ComputeUserStats(AllMessages(groups), emojiSet);
    UsersOk(groups, emojiSet);
    GroupOk(groups, emojiSet);
    if users.Err? then Err(EmptyMessageList)
    else if group.Err? then Err(group.fault)
    else Ok(Report(group.value, users.value))
  }

  /** Each users entry is its group's user with `_user_stats` of that
      group's own messages, in the groups' order, and the `group` entry
      is `_user_stats` of all messages. */
  lemma {:induction false} ComputeStatsEntries(groups: seq<Group>, emojiSet: set<char>)
    requires |groups| > 0 && forall k :: 0 <= k < |groups| ==> |groups[k].messages| > 0
    ensures var r := ComputeStats(groups, emojiSet).value;
      && |r.users| == |groups|
      && (forall k :: 0 <= k < |groups| ==>
            r.users[k] == (groups[k].user, ComputeUserStats(groups[k].messages, emojiSet).value))
      && r.group == ComputeUserStats(AllMessages(groups), emojiSet).value
  {
    var f := Reduce(emojiSet);
    var r := ComputeStats(groups, emojiSet).value;
    assert r.users == MapEntries(groups, f).value;
    forall k | 0 <= k < |groups|
      ensures r.users[k] == (groups[k].user, ComputeUserStats(groups[k].messages, emojiSet).value)
    {
      assert r.users[k] == (groups[k].user, f(groups[k].messages).value);
    }
  }

  /** The users' entries exist exactly when no group is empty. */
  lemma {:induction false} UsersOk(groups: seq<Group>, emojiSet: set<char>)
    ensures MapEntries(groups, Reduce(emojiSet)).Ok? <==> forall k :: 0 <= k < |groups| ==> |groups[k].messages| > 0
  {
    ReduceOk(emojiSet);
    MapEntriesOk(groups, Reduce(emojiSet));
  }

  /** A map whose reduction fails exactly on empty lists succeeds exactly
      when no group is empty. */
  lemma {:induction false} MapEntriesOk<S>(groups: seq<Group>, f: seq<Message> -> Result<S>)
    requires forall ms :: f(ms).Ok? <==> |ms| > 0
    ensures MapEntries(groups, f).Ok? <==> forall k :: 0 <= k < |groups| ==> |groups[k].messages| > 0
  {
  }

  /** The `group` entry exists exactly when some group is non-empty. */
  lemma {:induction false} GroupOk(groups: seq<Group>, emojiSet: set<char>)
    ensures ComputeUserStats(AllMessages(groups), emojiSet).Ok? <==> exists k :: 0 <= k < |groups| && |groups[k].messages| > 0
  {
    AllMessagesEmpty(groups);
  }

  lemma {:induction false} ReduceOk(emojiSet: set<char>)
    ensures forall ms :: Reduce(emojiSet)(ms).Ok? <==> |ms| > 0
  {
  }

  lemma {:induction false} AllMessagesEmpty(groups: seq<Group>)
    ensures |AllMessages(groups)| == 0 <==> forall k :: 0 <= k < |groups| ==> |groups[k].messages| == 0
    decreases |groups|
  {
    if |groups| > 0 {
      AllMessagesEmpty(groups[1..]);
      assert forall k :: 1 <= k < |groups| ==> groups[1..][k - 1] == groups[k];
    }
  }

  // ---------------------------------------------------------------------
  // The group entry agrees with the users' entries.

  function LinesOf(s: UserStats): nat { s.numLines }
  function MessagesOf(s: UserStats): nat { s.numMessages }
  function CharactersOf(s: UserStats): nat { s.numCharacters }
  function One(m: Message): nat { 1 }

  /** Sum of one statistic over the users' entries. */
  function EntriesSum<S>(users: seq<(User, S)>, sel: S -> nat): nat
  {
    if |users| == 0 then 0 else sel(users[0].1) + EntriesSum(users[1..], sel)
  }

  lemma {:induction false} SumByOne(ms: seq<Message>)
    ensures SumBy(ms, One) == |ms|
    decreases |ms|
  {
    if |ms| > 0 {
      SumByOne(ms[1..]);
    }
  }

  /** When a reduction sums `g` over its messages, summing its results over
      the entries sums `g` over all messages. */
  lemma {:induction false} EntrySums<S>(groups: seq<Group>, f: seq<Message> -> Result<S>, sel: S -> nat, g: Message -> nat)
    requires MapEntries(groups, f).Ok?
    requires forall ms :: f(ms).Ok? ==> sel(f(ms).value) == SumBy(ms, g)
    ensures EntriesSum(MapEntries(groups, f).value, sel) == SumBy(AllMessages(groups), g)
    decreases |groups|
  {
    if |groups| > 0 {
      var users := MapEntries(groups, f).value;
      assert forall k :: 1 <= k < |groups| ==> groups[1..][k - 1] == groups[k];
      EntrySums(groups[1..], f, sel, g);
      assert users[1..] == MapEntries(groups[1..], f).value;
      SumByConcat(groups[0].messages, AllMessages(groups[1..]), g);
    }
  }

  /** The `group` entry's message, line and character counts are the sums
      of the users' counts. */
  lemma {:induction false} GroupTotals(groups: seq<Group>, emojiSet: set<char>)
    requires |groups| > 0 && forall k :: 0 <= k < |groups| ==> |groups[k].messages| > 0
    ensures var r := ComputeStats(groups, emojiSet).value;
      && r.group.numMessages == EntriesSum(r.users, MessagesOf)
      && r.group.numLines == EntriesSum(r.users, LinesOf)
      && r.group.numCharacters == EntriesSum(r.users, CharactersOf)
  {
    var f := Reduce(emojiSet);
    forall ms | f(ms).Ok?
      ensures MessagesOf(f(ms).value) == SumBy(ms, One)
      ensures LinesOf(f(ms).value) == SumBy(ms, NumLines)
      ensures CharactersOf(f(ms).value) == SumBy(ms, NumCharacters)
    {
      UserStatsSpec(ms, emojiSet);
      SumByOne(ms);
    }
    EntrySums(groups, f, MessagesOf, One);
    EntrySums(groups, f, LinesOf, NumLines);
    EntrySums(groups, f, CharactersOf, NumCharacters);
    UserStatsSpec(AllMessages(groups), emojiSet);
    SumByOne(AllMessages(groups));
  }

  lemma {:induction false} AllMessagesMembers(groups: seq<Group>)
    ensures forall m :: m in AllMessages(groups) <==> exists k :: 0 <= k < |groups| && m in groups[k].messages
    decreases |groups|
  {
    if |groups| > 0 {
      AllMessagesMembers(groups[1..]);
      assert forall k :: 1 <= k < |groups| ==> groups[1..][k - 1] == groups[k];
    }
  }

  /** The earliest message of all groups is the earliest of the groups'
      earliest messages. */
  lemma {:induction false} EarliestOfGroups(groups: seq<Group>, starts: seq<Stamp>, s: Stamp)
    requires |starts| == |groups|
    requires forall k :: 0 <= k < |groups| ==> Earliest(starts[k], groups[k].messages)
    requires Earliest(s, AllMessages(groups))
    ensures forall k :: 0 <= k < |groups| ==> StampLe(s, starts[k])
    ensures exists k :: 0 <= k < |groups| && s == starts[k]
  {
    var all := AllMessages(groups);
    AllMessagesMembers(groups);
    forall k | 0 <= k < |groups| ensures StampLe(s, starts[k]) {
      var ms := groups[k].messages;
      var i :| 0 <= i < |ms| && ms[i].stamp == starts[k];
      assert ms[i] in all;
    }
    assert Earliest(s, all);
    var a :| 0 <= a < |all| && all[a].stamp == s;
    assert all[a] in all;
    var k :| 0 <= k < |groups| && all[a] in groups[k].messages;
    assert StampLe(starts[k], s);
  }

  /** The latest message of all groups is the latest of the groups' latest
      messages. */
  lemma {:induction false} LatestOfGroups(groups: seq<Group>, ends: seq<Stamp>, e: Stamp)
    requires |ends| == |groups|
    requires forall k :: 0 <= k < |groups| ==> Latest(ends[k], groups[k].messages)
    requires Latest(e, AllMessages(groups))
    ensures forall k :: 0 <= k < |groups| ==> StampLe(ends[k], e)
    ensures exists k :: 0 <= k < |groups| && e == ends[k]
  {
    var all := AllMessages(groups);
    AllMessagesMembers(groups);
    forall k | 0 <= k < |groups| ensures StampLe(ends[k], e) {
      var ms := groups[k].messages;
      var i :| 0 <= i < |ms| && ms[i].stamp == ends[k];
      assert ms[i] in all;
    }
    assert Latest(e, all);
    var a :| 0 <= a < |all| && all[a].stamp == e;
    assert all[a] in all;
    var k :| 0 <= k < |groups| && all[a] in groups[k].messages;
    assert StampLe(e, ends[k]);
  }

  /** Per-user spans and the whole span: the whole span starts at the
      earliest user `start` and ends at the latest user `end`. */
  lemma {:induction false} EntriesSpan(groups: seq<Group>, users: seq<(User, UserStats)>, whole: UserStats)
    requires |users| == |groups|
    requires forall k :: 0 <= k < |groups| ==>
      Earliest(users[k].1.start, groups[k].messages) && Latest(users[k].1.end, groups[k].messages)
    requires Earliest(whole.start, AllMessages(groups)) && Latest(whole.end, AllMessages(groups))
    ensures forall k :: 0 <= k < |users| ==> StampLe(whole.start, users[k].1.start)
    ensures exists k :: 0 <= k < |users| && whole.start == users[k].1.start
    ensures forall k :: 0 <= k < |users| ==> StampLe(users[k].1.end, whole.end)
    ensures exists k :: 0 <= k < |users| && whole.end == users[k].1.end
  {
    var starts := seq(|users|, k requires 0 <= k < |users| => users[k].1.start);
    var ends := seq(|users|, k requires 0 <= k < |users| => users[k].1.end);
    EarliestOfGroups(groups, starts, whole.start);
    LatestOfGroups(groups, ends, whole.end);
  }

  /** The `group` entry starts with the earliest of the users' `start`s
      and ends with the latest of their `end`s. */
  lemma {:induction false} GroupSpan(groups: seq<Group>, emojiSet: set<char>)
    requires |groups| > 0 && forall k :: 0 <= k < |groups| ==> |groups[k].messages| > 0
    ensures var r := ComputeStats(groups, emojiSet).value;
      && (forall k :: 0 <= k < |r.users| ==> StampLe(r.group.start, r.users[k].1.start))
      && (exists k :: 0 <= k < |r.users| && r.group.start == r.users[k].1.start)
      && (forall k :: 0 <= k < |r.users| ==> StampLe(r.users[k].1.end, r.group.end))
      && (exists k :: 0 <= k < |r.users| && r.group.end == r.users[k].1.end)
  {
    var r := ComputeStats(groups, emojiSet).value;
    var f := Reduce(emojiSet);
    assert r.users == MapEntries(groups, f).value;
    assert r.group == ComputeUserStats(AllMessages(groups), emojiSet).value;
    forall k | 0 <= k < |groups|
      ensures Earliest(r.users[k].1.start, groups[k].messages) && Latest(r.users[k].1.end, groups[k].messages)
    {
      assert r.users[k].1 == f(groups[k].messages).value;
      UserStatsSpec(groups[k].messages, emojiSet);
    }
    UserStatsSpec(AllMessages(groups), emojiSet);
    EntriesSpan(groups, r.users, r.group);
  }

  // ---------------------------------------------------------------------
  // From transcript to report.

  /** What the program's entry point computes from the transcript lines:
      parse_chat, then compute_stats. */
  function ChatReport(lines: seq<string>, numbers: map<string, string>, parseDate: DateParser, emojiSet: set<char>)
    : Result<Report>
  {
    var groups :- ParseChat(lines, numbers, parseDate);
    ComputeStats(groups, emojiSet)
  }

  /** A report is produced exactly when the transcript parses and holds at
      least one header line. Then there is one user entry per distinct
      resolved name, and the `group` entry counts one message per header
      line and one line per header or continuation line. */
  lemma {:induction false} ChatReportSpec(lines: seq<string>, numbers: map<string, string>, parseDate: DateParser, emojiSet: set<char>)
    ensures ChatReport(lines, numbers, parseDate, emojiSet).Ok? <==>
      Faultless(lines, parseDate) && CountKind(lines, HeaderLine) > 0
    ensures ChatReport(lines, numbers, parseDate, emojiSet).Ok? ==>
      var r := ChatReport(lines, numbers, parseDate, emojiSet).value;
      && SplitMessages(lines, numbers, parseDate).Ok?
      && |r.users| == |Distinct(UserNames(SplitMessages(lines, numbers, parseDate).value))|
      && r.group.numMessages == CountKind(lines, HeaderLine)
      && r.group.numLines == CountKind(lines, HeaderLine) + CountKind(lines, ContinuationLine)
  {
    ParseChatCounts(lines, numbers, parseDate);
    if ParseChat(lines, numbers, parseDate).Ok? {
      var groups := ParseChat(lines, numbers, parseDate).value;
      AllMessagesEmpty(groups);
      if |groups| > 0 && forall k :: 0 <= k < |groups| ==> |groups[k].messages| > 0 {
        GroupEntryCounts(groups, emojiSet);
      }
    }
  }

  /** The counts of parse_chat's result that the report depends on. */
  lemma {:induction false} ParseChatCounts(lines: seq<string>, numbers: map<string, string>, parseDate: DateParser)
    ensures ParseChat(lines, numbers, parseDate).Ok? <==> Faultless(lines, parseDate)
    ensures ParseChat(lines, numbers, parseDate).Ok? ==>
      SplitMessages(lines, numbers, parseDate).Ok? &&
      var g := ParseChat(lines, numbers, parseDate).value;
      && |g| == |Distinct(UserNames(SplitMessages(lines, numbers, parseDate).value))|
      && (forall k :: 0 <= k < |g| ==> |g[k].messages| > 0)
      && |AllMessages(g)| == CountKind(lines, HeaderLine)
      && SumBy(AllMessages(g), NumLines) == CountKind(lines, HeaderLine) + CountKind(lines, ContinuationLine)
  {
    ParseChatSpec(lines, numbers, parseDate);
  }

  /** The report of non-empty groups has one entry per group, and its
      `group` entry counts all messages and all their lines. */
  lemma {:induction false} GroupEntryCounts(groups: seq<Group>, emojiSet: set<char>)
    requires |groups| > 0 && forall k :: 0 <= k < |groups| ==> |groups[k].messages| > 0
    ensures var r := ComputeStats(groups, emojiSet).value;
      && |r.users| == |groups|
      && r.group.numMessages == |AllMessages(groups)|
      && r.group.numLines == SumBy(AllMessages(groups), NumLines)
  {
    ComputeStatsEntries(groups, emojiSet);
    AllMessagesEmpty(groups);
    UserStatsSpec(AllMessages(groups), emojiSet);
  }
}

=== FILE: stats.dfy ===
/** The per-list reductions of stats.py other than activity: `start`,
    `end`, the line/message/character totals, emoji counting and
    media-marker counting. */
module Stats {
  import opened Common
  import opened Strings
  import opened Ordering
  import opened Tallies
  import opened Messages

  // ---------------------------------------------------------------------
  // start and end.

  /** `min(messages, key=lambda m: m.date).date` on a non-empty list. */
  function MinStamp(ms: seq<Message>): (r: Stamp)
    requires |ms| > 0
    ensures exists i :: 0 <= i < |ms| && ms[i].stamp == r
    ensures forall i :: 0 <= i < |ms| ==> StampLe(r, ms[i].stamp)
  {
    if |ms| == 1 then ms[0].stamp
    else
      var rest := MinStamp(ms[1..]);
      assert forall j :: 1 <= j < |ms| ==> ms[1..][j - 1] == ms[j];
      if StampLe(ms[0].stamp, rest) then ms[0].stamp else rest
  }

  /** `max(messages, key=lambda m: m.date).date` on a non-empty list. */
  function MaxStamp(ms: seq<Message>): (r: Stamp)
    requires |ms| > 0
    ensures exists i :: 0 <= i < |ms| && ms[i].stamp == r
    ensures forall i :: 0 <= i < |ms| ==> StampLe(ms[i].stamp, r)
  {
    if |ms| == 1 then ms[0].stamp
    else
      var rest := MaxStamp(ms[1..]);
      assert forall j :: 1 <= j < |ms| ==> ms[1..][j - 1] == ms[j];
      if StampLe(rest, ms[0].stamp) then ms[0].stamp else rest
  }

  /** The `start` statistic: the earliest timestamp; Python's `min` raises
      on an empty list. */
  function Start(ms: seq<Message>): (r: Result<Stamp>)
    ensures r.Err? <==> |ms| == 0
    ensures r.Err? ==> r.fault == EmptyMessageList
    ensures r.Ok? ==> exists i :: 0 <= i < |ms| && ms[i].stamp == r.value
    ensures r.Ok? ==> forall i :: 0 <= i < |ms| ==> StampLe(r.value, ms[i].stamp)
  {
    if |ms| == 0 then Err(EmptyMessageList) else Ok(MinStamp(ms))
  }

  /** The `end` statistic: the latest timestamp; Python's `max` raises on
      an empty list. */
  function End(ms: seq<Message>): (r: Result<Stamp>)
    ensures r.Err? <==> |ms| == 0
    ensures r.Err? ==> r.fault == EmptyMessageList
    ensures r.Ok? ==> exists i :: 0 <= i < |ms| && ms[i].stamp == r.value
    ensures r.Ok? ==> forall i :: 0 <= i < |ms| ==> StampLe(ms[i].stamp, r.value)
  {
    if |ms| == 0 then Err(EmptyMessageList) else Ok(MaxStamp(ms))
  }

  /** `start` never comes after `end`, and they coincide exactly when all
      messages carry the same timestamp. */
  lemma {:induction false} StartNotAfterEnd(ms: seq<Message>)
    requires |ms| > 0
    ensures StampLe(Start(ms).value, End(ms).value)
    ensures Start(ms).value == End(ms).value <==> forall i :: 0 <= i < |ms| ==> ms[i].stamp == ms[0].stamp
  {
    var s := Start(ms).value;
    var e := End(ms).value;
    assert StampLe(s, ms[0].stamp) && StampLe(ms[0].stamp, e);
    if s == e {
      forall i | 0 <= i < |ms| ensures ms[i].stamp == ms[0].stamp {
        assert StampLe(s, ms[i].stamp) && StampLe(ms[i].stamp, e);
      }
    }
  }

  // ---------------------------------------------------------------------
  // num_lines, num_messages, num_characters.

  /** The `num_lines` statistic. */
  function TotalLines(ms: seq<Message>): nat
  {
    SumBy(ms, NumLines)
  }

  /** The `num_characters` statistic. */
  function TotalCharacters(ms: seq<Message>): nat
  {
    SumBy(ms, NumCharacters)
  }

  /** Every message has at least one line, so `num_lines` is at least
      `num_messages`, with equality exactly when no message has a
      continuation line. */
  lemma {:induction false} LinesAtLeastMessages(ms: seq<Message>)
    requires forall i :: 0 <= i < |ms| ==> WellFormed(ms[i])
    ensures TotalLines(ms) >= |ms|
    ensures TotalLines(ms) == |ms| <==> forall i :: 0 <= i < |ms| ==> NumLines(ms[i]) == 1
    decreases |ms|
  {
    if |ms| > 0 {
      LinesAtLeastMessages(ms[1..]);
      assert forall i :: 1 <= i < |ms| ==> ms[1..][i - 1] == ms[i];
    }
  }

  /** The characters of the messages' texts: `num_characters` plus one
      newline between each pair of neighbouring lines of a message. */
  lemma {:induction false} CharactersOfTexts(ms: seq<Message>)
    requires forall i :: 0 <= i < |ms| ==> WellFormed(ms[i])
    ensures TotalCharacters(ms) + TotalLines(ms) == TotalLength(Texts(ms)) + |ms|
    decreases |ms|
  {
    if |ms| > 0 {
      CharactersOfTexts(ms[1..]);
      TextLength(ms[0]);
      assert Texts(ms) == [Text(ms[0])] + Texts(ms[1..]);
      assert forall i :: 1 <= i < |ms| ==> ms[1..][i - 1] == ms[i];
    }
  }

  // ---------------------------------------------------------------------
  // top over a tally.

  /** `[(v, d) for d, v in tally.items()]`: (count, key) pairs in the
      tally's order. */
  function CountKeyPairs(h: seq<(int, nat)>): (ps: seq<Pair>)
    ensures |ps| == |h|
    ensures forall i :: 0 <= i < |h| ==> ps[i] == (h[i].1 as int, h[i].0)
  {
    seq(|h|, i requires 0 <= i < |h| => (h[i].1 as int, h[i].0))
  }

  /** `top` of a tally's (count, key) pairs returns entries of the tally,
      and every entry left out ranks no higher than every entry kept. */
  lemma {:induction false} TopOfTally(h: seq<(int, nat)>, limit: nat)
    requires NoDups(Keys(h))
    ensures var t := Top(CountKeyPairs(h), limit);
      && (forall p :: p in t ==> p.1 in Keys(h) && p.0 == Lookup(h, p.1))
      && (forall x, p :: x in Keys(h) && p in t && (Lookup(h, x) as int, x) !in t ==> PairLe((Lookup(h, x), x), p))
  {
    var ps := CountKeyPairs(h);
    var t := Top(ps, limit);
    forall p | p in t
      ensures p.1 in Keys(h) && p.0 == Lookup(h, p.1)
    {
      assert p in multiset(t);
      assert p in multiset(ps);
      var i :| 0 <= i < |ps| && ps[i] == p;
      assert Keys(h)[i] == p.1;
      LookupEntry(h, i);
    }
    forall x, p | x in Keys(h) && p in t && (Lookup(h, x) as int, x) !in t
      ensures PairLe((Lookup(h, x), x), p)
    {
      var i :| 0 <= i < |h| && Keys(h)[i] == x;
      LookupEntry(h, i);
      assert ps[i] == (Lookup(h, x), x);
      assert ps[i] in multiset(ps);
      assert multiset(t)[ps[i]] == 0;
      assert ps[i] in multiset(ps) - multiset(t);
    }
  }

  // ---------------------------------------------------------------------
  // Emojis.

  /** The `emojis` statistic: `count`, and `most_used` as (count, code
      point) pairs, `None` when the text holds no emoji. */
  datatype EmojiStats = EmojiStats(count: nat, mostUsed: Option<seq<Pair>>)

  /** The texts of the messages, in order. */
  function Texts(ms: seq<Message>): (ts: seq<string>)
    ensures |ts| == |ms|
    ensures forall i :: 0 <= i < |ms| ==> ts[i] == Text(ms[i])
  {
    seq(|ms|, i requires 0 <= i < |ms| => Text(ms[i]))
  }

  /** `'\n'.join([m.text for m in messages])`. */
  function FullText(ms: seq<Message>): string
  {
    Join(Texts(ms), "\n")
  }

  /** The tally of `str_to_dict` re-keyed by code point. */
  function CodePoints(d: seq<(char, nat)>): (h: seq<(int, nat)>)
    ensures |h| == |d|
    ensures forall i :: 0 <= i < |d| ==> h[i] == (d[i].0 as int, d[i].1)
  {
    seq(|d|, i requires 0 <= i < |d| => (d[i].0 as int, d[i].1))
  }

  /** `_compute_emojis`. */
  function ComputeEmojis(ms: seq<Message>, emojiSet: set<char>): EmojiStats
  {
    var d := StrToDict(FullText(ms), emojiSet);
    EmojiStats(Total(d), if |d| > 0 then Some(Top(CountKeyPairs(CodePoints(d)), 3)) else None)
  }

  /** The rank `top` gives an emoji of `text`: its number of occurrences,
      then its code point. */
  function EmojiRank(text: string, c: char): Pair
  {
    (multiset(text)[c], c as int)
  }

  /** `count` is the number of characters of the joined text that are
      emoji, and `most_used` is `None` exactly when that number is 0. */
  lemma {:induction false} EmojiCount(ms: seq<Message>, emojiSet: set<char>)
    ensures var r := ComputeEmojis(ms, emojiSet);
      && r.count == |CharsIn(FullText(ms), emojiSet)|
      && (r.mostUsed.None? <==> r.count == 0)
  {
    var text := FullText(ms);
    var d := StrToDict(text, emojiSet);
    if |d| > 0 {
      var c := d[0].0;
      assert c in Keys(d);
      assert multiset(CharsIn(text, emojiSet))[c] > 0;
    }
  }

  /** Re-keying by code point keeps the keys distinct. */
  lemma {:induction false} CodePointsNoDups(d: seq<(char, nat)>)
    requires NoDups(Keys(d))
    ensures NoDups(Keys(CodePoints(d)))
  {
    var h := CodePoints(d);
    forall i, j | 0 <= i < j < |h| ensures Keys(h)[i] != Keys(h)[j] {
      assert Keys(h)[i] == d[i].0 as int && Keys(h)[j] == d[j].0 as int;
      assert Keys(d)[i] != Keys(d)[j];
    }
  }

  /** When the text holds emoji, `most_used` lists min(3, number of
      distinct emoji) of them, largest rank first; each pairs an emoji of
      the text with its number of occurrences, and no emoji left out ranks
      above one listed. */
  lemma {:induction false} EmojiMostUsed(ms: seq<Message>, emojiSet: set<char>)
    ensures ComputeEmojis(ms, emojiSet).mostUsed.Some? ==>
      var t := ComputeEmojis(ms, emojiSet).mostUsed.value;
      var text := FullText(ms);
      && |t| == Min(3, |set c | c in text && c in emojiSet|)
      && Descending(t)
      && (forall p :: p in t ==> exists c :: c in text && c in emojiSet && p == EmojiRank(text, c))
      && (forall c, p :: c in text && c in emojiSet && p in t && EmojiRank(text, c) !in t ==>
            PairLe(EmojiRank(text, c), p))
  {
    var text := FullText(ms);
    var d := StrToDict(text, emojiSet);
    MostUsedSize(text, emojiSet, d);
    MostUsedEntries(text, emojiSet, d);
    MostUsedDominates(text, emojiSet, d);
  }

  /** What the rest of the emoji lemmas need of the character tally `d`. */
  predicate EmojiTally(text: string, emojiSet: set<char>, d: seq<(char, nat)>)
  {
    && NoDups(Keys(d))
    && (forall c :: c in Keys(d) <==> c in text && c in emojiSet)
    && (forall c :: Lookup(d, c) == if c in emojiSet then multiset(text)[c] else 0)
  }

  lemma {:induction false} MostUsedSize(text: string, emojiSet: set<char>, d: seq<(char, nat)>)
    requires EmojiTally(text, emojiSet, d)
    ensures var t := Top(CountKeyPairs(CodePoints(d)), 3);
      && |t| == Min(3, |set c | c in text && c in emojiSet|)
      && Descending(t)
  {
    NoDupsCard(Keys(d));
    assert (set c | c in Keys(d)) == (set c | c in text && c in emojiSet);
  }

  lemma {:induction false} MostUsedEntries(text: string, emojiSet: set<char>, d: seq<(char, nat)>)
    requires EmojiTally(text, emojiSet, d)
    ensures forall p :: p in Top(CountKeyPairs(CodePoints(d)), 3) ==>
      exists c :: c in text && c in emojiSet && p == EmojiRank(text, c)
  {
    var h := CodePoints(d);
    var t := Top(CountKeyPairs(h), 3);
    CodePointsNoDups(d);
    TopOfTally(h, 3);
    forall p | p in t
      ensures exists c :: c in text && c in emojiSet && p == EmojiRank(text, c)
    {
      var i :| 0 <= i < |h| && Keys(h)[i] == p.1;
      var c := d[i].0;
      assert c in Keys(d);
      LookupEntry(h, i);
      LookupEntry(d, i);
      assert p == EmojiRank(text, c);
    }
  }

  lemma {:induction false} MostUsedDominates(text: string, emojiSet: set<char>, d: seq<(char, nat)>)
    requires EmojiTally(text, emojiSet, d)
    ensures var t := Top(CountKeyPairs(CodePoints(d)), 3);
      forall c, p :: c in text && c in emojiSet && p in t && EmojiRank(text, c) !in t ==>
        PairLe(EmojiRank(text, c), p)
  {
    var h := CodePoints(d);
    var t := Top(CountKeyPairs(h), 3);
    CodePointsNoDups(d);
    TopOfTally(h, 3);
    forall c, p | c in text && c in emojiSet && p in t && EmojiRank(text, c) !in t
      ensures PairLe(EmojiRank(text, c), p)
    {
      assert c in Keys(d);
      var i :| 0 <= i < |d| && Keys(d)[i] == c;
      assert Keys(h)[i] == c as int;
      LookupEntry(h, i);
      LookupEntry(d, i);
    }
  }

  // ---------------------------------------------------------------------
  // Sharing.

  /** The keys of `sharing_types`, in the order they are tried; the third
      is spelled as in the program. */
  const Markers: seq<string> := ["GIF omitted", "image omitted", "video omitter", "audio omitted", "Location: "]

  /** The values of `sharing_types`: the category each marker counts for. */
  const Categories: seq<string> := ["GIF", "Image", "Video", "Audio", "Location"]

  function FirstMarkerFrom(text: string, j: nat): (k: nat)
    requires j <= |Markers|
    ensures j <= k <= |Markers|
    ensures k < |Markers| ==> Contains(text, Markers[k])
    ensures forall i :: j <= i < k ==> !Contains(text, Markers[i])
    decreases |Markers| - j
  {
    if j == |Markers| then j
    else if Contains(text, Markers[j]) then j
    else FirstMarkerFrom(text, j + 1)
  }

  /** The inner loop of `_compute_sharing`: the position of the first
      marker the text contains, or `|Markers|` when it contains none.
      Category `k` is chosen exactly when the text contains marker `k` and
      none of the markers before it. */
  function FirstMarker(text: string): (k: nat)
    ensures k <= |Markers|
    ensures forall i :: 0 <= i < |Markers| ==>
      (k == i <==> Contains(text, Markers[i]) && forall j :: 0 <= j < i ==> !Contains(text, Markers[j]))
    ensures k == |Markers| <==> forall j :: 0 <= j < |Markers| ==> !Contains(text, Markers[j])
  {
    FirstMarkerFrom(text, 0)
  }

  /** The category chosen for each message, in order. */
  function MarkerKinds(ms: seq<Message>): (ks: seq<nat>)
    ensures |ks| == |ms|
    ensures forall i :: 0 <= i < |ms| ==> ks[i] == FirstMarker(Text(ms[i]))
  {
    seq(|ms|, i requires 0 <= i < |ms| => FirstMarker(Text(ms[i])))
  }

  /** The counts before any message. */
  function NoShares(): (r: seq<(string, nat)>)
    ensures Keys(r) == Categories
    ensures forall k :: 0 <= k < |Categories| ==> r[k].1 == 0
    ensures Total(r) == 0
  {
    var r := [("GIF", 0), ("Image", 0), ("Video", 0), ("Audio", 0), ("Location", 0)];
    assert Keys(r[4..]) == ["Location"];
    assert Keys(r[3..]) == ["Audio", "Location"];
    assert Keys(r[2..]) == ["Video", "Audio", "Location"];
    assert Keys(r[1..]) == ["Image", "Video", "Audio", "Location"];
    r
  }

  /** `_compute_sharing`: the five categories in order, each counting the
      messages whose first marker is that category's; the counts plus the
      messages with no marker make up all the messages. */
  function ComputeSharing(ms: seq<Message>): (r: seq<(string, nat)>)
    ensures Keys(r) == Categories
    ensures forall k :: 0 <= k < |Categories| ==> r[k].1 == multiset(MarkerKinds(ms))[k]
    ensures Total(r) + multiset(MarkerKinds(ms))[|Markers|] == |ms|
  {
    if |ms| == 0 then NoShares()
    else
      var kinds := MarkerKinds(ms[..|ms| - 1]);
      var prev := ComputeSharing(ms[..|ms| - 1]);
      var k := FirstMarker(Text(ms[|ms| - 1]));
      KindsSnoc(ms);
      SharingStep(prev, kinds, k);
      if k < |Categories| then prev[k := (prev[k].0, prev[k].1 + 1)] else prev
  }

  /** Counting one more message of kind `k` keeps the counts in step with
      the kinds seen so far. */
  lemma {:induction false} SharingStep(prev: seq<(string, nat)>, kinds: seq<nat>, k: nat)
    requires k <= |Markers|
    requires Keys(prev) == Categories
    requires forall j :: 0 <= j < |Categories| ==> prev[j].1 == multiset(kinds)[j]
    requires Total(prev) + multiset(kinds)[|Markers|] == |kinds|
    ensures var r := if k < |Categories| then prev[k := (prev[k].0, prev[k].1 + 1)] else prev;
      && Keys(r) == Categories
      && (forall j :: 0 <= j < |Categories| ==> r[j].1 == multiset(kinds + [k])[j])
      && Total(r) + multiset(kinds + [k])[|Markers|] == |kinds| + 1
  {
    assert multiset(kinds + [k]) == multiset(kinds) + multiset{k};
    if k < |Categories| {
      TotalBump(prev, k);
    }
  }

  /** The marker WhatsApp writes for a video, "video omitted", is none of
      the markers, so such a message counts for no category. */
  lemma {:induction false} VideoOmittedUncounted()
    ensures FirstMarker("video omitted") == |Markers|
  {
    var t := "video omitted";
    assert !Contains(t, Markers[0]) by { Absent(t, Markers[0], 'G'); }
    assert !Contains(t, Markers[1]) by { Absent(t, Markers[1], 'g'); }
    assert !Contains(t, Markers[2]) by { Absent(t, Markers[2], 'r'); }
    assert !Contains(t, Markers[3]) by { Absent(t, Markers[3], 'a'); }
    assert !Contains(t, Markers[4]) by { Absent(t, Markers[4], 'L'); }
  }

  /** A character of the marker that the text lacks rules the marker out. */
  lemma {:induction false} Absent(text: string, marker: string, c: char)
    requires c in marker && c !in text
    ensures !Contains(text, marker)
  {
    ContainsChar(text, marker, c);
  }

  lemma {:induction false} KindsSnoc(ms: seq<Message>)
    requires |ms| > 0
    ensures MarkerKinds(ms) == MarkerKinds(ms[..|ms| - 1]) + [FirstMarker(Text(ms[|ms| - 1]))]
  {
  }

  lemma {:induction false} TotalBump(h: seq<(string, nat)>, k: nat)
    requires k < |h|
    ensures Total(h[k := (h[k].0, h[k].1 + 1)]) == Total(h) + 1
    ensures Keys(h[k := (h[k].0, h[k].1 + 1)]) == Keys(h)
    decreases k
  {
    var h' := h[k := (h[k].0, h[k].1 + 1)];
    if k == 0 {
      assert h'[1..] == h[1..];
    } else {
      assert h'[1..] == h[1..][k - 1 := (h[k].0, h[k].1 + 1)];
      TotalBump(h[1..], k - 1);
    }
  }
}

=== FILE: strings.dfy ===
/** String helpers: Python's `sep.join(parts)`, `str.split(sep)` for a
    one-character separator, and the substring test `pat in text`. */
module Strings {

  /** `sep.join(parts)`. */
  function Join(parts: seq<string>, sep: string): string
  {
    if |parts| == 0 then ""
    else if |parts| == 1 then parts[0]
    else parts[0] + sep + Join(parts[1..], sep)
  }

  /** Sum of the lengths of the parts. */
  function TotalLength(parts: seq<string>): nat
  {
    if |parts| == 0 then 0 else |parts[0]| + TotalLength(parts[1..])
  }

  /** `text.split(c)` for a single character `c`. */
  function SplitOn(text: string, c: char): (parts: seq<string>)
    ensures |parts| >= 1
    ensures forall k :: 0 <= k < |parts| ==> c !in parts[k]
  {
    if |text| == 0 then [""]
    else
      var rest := SplitOn(text[1..], c);
      if text[0] == c then [""] + rest
      else [[text[0]] + rest[0]] + rest[1..]
  }

  /** `pat in text`: `pat` occurs somewhere in `text`. */
  predicate Contains(text: string, pat: string)
  {
    exists i :: 0 <= i <= |text| && OccursAt(text, pat, i)
  }

  /** `pat` starts at position `i` of `text`. */
  predicate OccursAt(text: string, pat: string, i: int)
  {
    0 <= i <= |text| - |pat| && text[i..i + |pat|] == pat
  }

  /** The joined text is as long as its parts plus one separator between
      each neighbouring pair. */
  lemma {:induction false} JoinLength(parts: seq<string>, sep: string)
    requires |parts| > 0
    ensures |Join(parts, sep)| == TotalLength(parts) + (|parts| - 1) * |sep|
    decreases |parts|
  {
    if |parts| > 1 {
      JoinLength(parts[1..], sep);
    }
  }

  /** Splitting on the separator undoes the join, provided no part
      contains the separator character. */
  lemma {:induction false} SplitJoin(parts: seq<string>, c: char)
    requires |parts| > 0
    requires forall k :: 0 <= k < |parts| ==> c !in parts[k]
    ensures SplitOn(Join(parts, [c]), c) == parts
    decreases |parts|
  {
    if |parts| == 1 {
      SplitNoSeparator(parts[0], c);
    } else {
      SplitJoin(parts[1..], c);
      SplitPrefix(parts[0], Join(parts[1..], [c]), c);
      assert parts[0] + [c] + Join(parts[1..], [c]) == parts[0] + ([c] + Join(parts[1..], [c]));
      assert [parts[0]] + parts[1..] == parts;
    }
  }

  lemma {:induction false} SplitNoSeparator(s: string, c: char)
    requires c !in s
    ensures SplitOn(s, c) == [s]
    decreases |s|
  {
    if |s| > 0 {
      SplitNoSeparator(s[1..], c);
      assert [s[0]] + s[1..] == s;
    }
  }

  lemma {:induction false} SplitPrefix(a: string, rest: string, c: char)
    requires c !in a
    ensures SplitOn(a + ([c] + rest), c) == [a] + SplitOn(rest, c)
    decreases |a|
  {
    if |a| == 0 {
      assert a + ([c] + rest) == [c] + rest;
      assert ([c] + rest)[1..] == rest;
    } else {
      assert (a + ([c] + rest))[1..] == a[1..] + ([c] + rest);
      SplitPrefix(a[1..], rest, c);
      assert [a[0]] + a[1..] == a;
    }
  }

  /** Every character of a pattern that occurs in a text is a character
      of the text. */
  lemma {:induction false} ContainsChar(text: string, pat: string, c: char)
    requires c in pat
    ensures Contains(text, pat) ==> c in text
  {
    if Contains(text, pat) {
      var i :| 0 <= i <= |text| && OccursAt(text, pat, i);
      var j :| 0 <= j < |pat| && pat[j] == c;
      assert text[i..i + |pat|][j] == c;
    }
  }
}

=== FILE: tallies.dfy ===
/** Counting occurrences in insertion order.

    A Python `defaultdict(int)` that is only ever incremented is modelled as
    an association list of (key, count) entries in the order the keys were
    first incremented, which is the iteration order of a Python dict. */
module Tallies {

  predicate NoDups<T(==)>(s: seq<T>)
  {
    forall i, j :: 0 <= i < j < |s| ==> s[i] != s[j]
  }

  function Keys<T>(h: seq<(T, nat)>): (ks: seq<T>)
    ensures |ks| == |h|
    ensures forall i :: 0 <= i < |h| ==> ks[i] == h[i].0
  {
    if |h| == 0 then [] else [h[0].0] + Keys(h[1..])
  }

  /** Sum of the counts, Python's `sum(d.values())`. */
  function Total<T>(h: seq<(T, nat)>): nat
  {
    if |h| == 0 then 0 else h[0].1 + Total(h[1..])
  }

  /** `d[x]` on the defaultdict: the count of `x`, 0 when absent. */
  function Lookup<T(==)>(h: seq<(T, nat)>, x: T): nat
  {
    if |h| == 0 then 0 else if h[0].0 == x then h[0].1 else Lookup(h[1..], x)
  }

  /** The distinct elements of `s` in order of first appearance. */
  function Distinct<T(==,!new)>(s: seq<T>): (d: seq<T>)
    ensures NoDups(d)
    ensures forall x :: x in d <==> x in s
  {
    if |s| == 0 then []
    else
      var prev := Distinct(s[..|s| - 1]);
      var x := s[|s| - 1];
      assert s == s[..|s| - 1] + [x];
      if x in prev then prev else prev + [x]
  }

  /** `d[x] += 1`: increments the count of an existing key in place, or
      appends the new key with count 1. */
  function Bump<T(==,!new)>(h: seq<(T, nat)>, x: T): (r: seq<(T, nat)>)
    ensures Keys(r) == if x in Keys(h) then Keys(h) else Keys(h) + [x]
    ensures Total(r) == Total(h) + 1
    ensures forall y :: Lookup(r, y) == Lookup(h, y) + (if y == x then 1 else 0)
    ensures forall i :: 0 <= i < |r| ==> r[i].1 >= 1 || r[i] in h
  {
    if |h| == 0 then [(x, 1)]
    else
      ConsParts(h[0], h[1..]);
      assert [h[0]] + h[1..] == h;
      if h[0].0 == x then
        ConsParts((x, h[0].1 + 1), h[1..]);
        [(x, h[0].1 + 1)] + h[1..]
      else
        var rest := Bump(h[1..], x);
        ConsParts(h[0], rest);
        [h[0]] + rest
  }

  /** Keys, total and lookups of an entry followed by a list. */
  lemma {:induction false} ConsParts<T>(e: (T, nat), t: seq<(T, nat)>)
    ensures Keys([e] + t) == [e.0] + Keys(t)
    ensures Total([e] + t) == e.1 + Total(t)
    ensures forall y :: Lookup([e] + t, y) == if e.0 == y then e.1 else Lookup(t, y)
  {
    assert ([e] + t)[1..] == t;
  }

  /** Counting every element of `s`, left to right. Each distinct element
      gets exactly one entry, in order of first appearance, holding its
      number of occurrences; the counts add up to the length of `s`. */
  function Tally<T(==,!new)>(s: seq<T>): (r: seq<(T, nat)>)
    ensures Keys(r) == Distinct(s)
    ensures forall y :: Lookup(r, y) == multiset(s)[y]
    ensures forall i :: 0 <= i < |r| ==> r[i].1 >= 1
    ensures Total(r) == |s|
  {
    if |s| == 0 then []
    else
      var prev := Tally(s[..|s| - 1]);
      TallyStep(prev, s);
      Bump(prev, s[|s| - 1])
  }

  /** Counting the last element of `s` on top of a tally of the others
      gives a tally of `s`. */
  lemma {:induction false} TallyStep<T(!new)>(prev: seq<(T, nat)>, s: seq<T>)
    requires |s| > 0
    requires Keys(prev) == Distinct(s[..|s| - 1])
    requires forall y :: Lookup(prev, y) == multiset(s[..|s| - 1])[y]
    requires forall i :: 0 <= i < |prev| ==> prev[i].1 >= 1
    requires Total(prev) == |s| - 1
    ensures var r := Bump(prev, s[|s| - 1]);
      && Keys(r) == Distinct(s)
      && (forall y :: Lookup(r, y) == multiset(s)[y])
      && (forall i :: 0 <= i < |r| ==> r[i].1 >= 1)
      && Total(r) == |s|
  {
    var pre := s[..|s| - 1];
    var x := s[|s| - 1];
    assert s == pre + [x];
    assert multiset(s) == multiset(pre) + multiset{x};
    var r := Bump(prev, x);
    forall i | 0 <= i < |r| ensures r[i].1 >= 1 {
      if r[i] in prev {
        var j :| 0 <= j < |prev| && prev[j] == r[i];
      }
    }
  }

  /** In an association list without repeated keys, looking up the key of
      an entry yields that entry's count. */
  lemma {:induction false} LookupEntry<T>(h: seq<(T, nat)>, i: nat)
    requires NoDups(Keys(h))
    requires i < |h|
    ensures Lookup(h, h[i].0) == h[i].1
    decreases i
  {
    if i > 0 {
      assert Keys(h)[0] != Keys(h)[i];
      assert Keys(h[1..]) == Keys(h)[1..];
      LookupEntry(h[1..], i - 1);
    }
  }

  /** Every entry of a tally holds the number of occurrences of its key. */
  lemma {:induction false} TallyEntries<T(!new)>(s: seq<T>)
    ensures forall i :: 0 <= i < |Tally(s)| ==> Tally(s)[i].1 == multiset(s)[Tally(s)[i].0]
  {
    var r := Tally(s);
    forall i | 0 <= i < |r|
      ensures r[i].1 == multiset(s)[r[i].0]
    {
      LookupEntry(r, i);
    }
  }

  /** Distinct lists keys in order of first appearance: every occurrence
      in `s` of a later key is preceded by an occurrence of each earlier
      key. */
  lemma {:induction false} FirstAppearanceOrder<T(!new)>(s: seq<T>)
    ensures forall i, j, q :: 0 <= i < j < |Distinct(s)| && 0 <= q < |s| && s[q] == Distinct(s)[j] ==>
              exists p :: 0 <= p < q && s[p] == Distinct(s)[i]
    decreases |s|
  {
    if |s| > 0 {
      var n := |s| - 1;
      var pre := s[..n];
      var x := s[n];
      FirstAppearanceOrder(pre);
      var d := Distinct(s);
      var dp := Distinct(pre);
      forall i, j, q | 0 <= i < j < |d| && 0 <= q < |s| && s[q] == d[j]
        ensures exists p :: 0 <= p < q && s[p] == d[i]
      {
        if j < |dp| {
          assert d[j] == dp[j] && d[i] == dp[i];
          var q' := q;
          if q == n {
            assert d[j] in pre;
            q' :| 0 <= q' < n && pre[q'] == d[j];
          }
          assert pre[q'] == dp[j];
          var p :| 0 <= p < q' && pre[p] == dp[i];
          assert s[p] == d[i];
        } else {
          assert x !in pre && d[j] == x;
          if q < n {
            assert false;
          }
          assert dp[i] in pre;
          var p :| 0 <= p < n && pre[p] == dp[i];
          assert s[p] == d[i];
        }
      }
      assert d == Distinct(s);
    }
  }

  /** The characters of `s` that belong to `filter`, in order. */
  function CharsIn(s: string, filter: set<char>): (r: string)
    ensures forall c :: multiset(r)[c] == if c in filter then multiset(s)[c] else 0
  {
    if |s| == 0 then ""
    else
      assert s == s[..|s| - 1] + [s[|s| - 1]];
      var prev := CharsIn(s[..|s| - 1], filter);
      if s[|s| - 1] in filter then prev + [s[|s| - 1]] else prev
  }

  /** `str_to_dict(input_str, filter_set)` (utils.py): walks the string and
      increments the count of each character that is in the filter set.
      This is the tally of the characters that are in the set: the keys
      are exactly the characters of the string that are in the set, in
      order of first appearance, each counted by its number of
      occurrences, and the counts add up to the number of characters of
      the string that are in the set. */
  function StrToDict(s: string, filter: set<char>): (r: seq<(char, nat)>)
    ensures r == Tally(CharsIn(s, filter))
    ensures NoDups(Keys(r))
    ensures forall c :: c in Keys(r) <==> c in s && c in filter
    ensures forall c :: Lookup(r, c) == if c in filter then multiset(s)[c] else 0
    ensures Total(r) == |CharsIn(s, filter)|
  {
    if |s| == 0 then []
    else
      var prev := StrToDict(s[..|s| - 1], filter);
      FilteredStep(s, filter);
      FilteredTally(s, filter);
      if s[|s| - 1] in filter then Bump(prev, s[|s| - 1]) else prev
  }

  /** The filtered characters grow by the last character exactly when it
      is in the set, and so does their tally. */
  lemma {:induction false} FilteredStep(s: string, filter: set<char>)
    requires |s| > 0
    ensures var pre := CharsIn(s[..|s| - 1], filter);
      Tally(CharsIn(s, filter)) == if s[|s| - 1] in filter then Bump(Tally(pre), s[|s| - 1]) else Tally(pre)
  {
    var pre := CharsIn(s[..|s| - 1], filter);
    var c := s[|s| - 1];
    if c in filter {
      var t := CharsIn(s, filter);
      assert t == pre + [c];
      assert t[..|t| - 1] == pre;
    }
  }

  lemma {:induction false} FilteredTally(s: string, filter: set<char>)
    ensures var r := Tally(CharsIn(s, filter));
      && NoDups(Keys(r))
      && (forall c :: c in Keys(r) <==> c in s && c in filter)
      && (forall c :: Lookup(r, c) == if c in filter then multiset(s)[c] else 0)
      && Total(r) == |CharsIn(s, filter)|
  {
    var t := CharsIn(s, filter);
    forall c ensures c in t <==> c in s && c in filter {
      assert c in t <==> multiset(t)[c] > 0;
      assert c in s <==> multiset(s)[c] > 0;
    }
  }

  /** A list without repeats has as many elements as its set. */
  lemma {:induction false} NoDupsCard<T>(s: seq<T>)
    requires NoDups(s)
    ensures |set x | x in s| == |s|
    decreases |s|
  {
    if |s| > 0 {
      var pre := s[..|s| - 1];
      NoDupsCard(pre);
      assert (set x | x in s) == (set x | x in pre) + {s[|s| - 1]};
      assert s[|s| - 1] !in pre;
    }
  }
}

=== FILE: users.dfy ===
/** `User` (message.py): the identity behind a sender label.

    A label is tried against the phone pattern
    `.(\+\d+).(\d+).(\d+).(\d+).(\d+).(\d+)`, anchored at the start of the
    label only. When it matches, the six captured groups joined by single
    spaces form the key looked up in the number map. */
module Users {
  import opened Common
  import opened Strings

  /** `name` is the display name; `isNumber` is set for a phone number that
      the number map does not know. */
  datatype User = User(name: string, isNumber: bool)

  /** Python's `__eq__`/`__hash__`: users are the same when their names
      are, whatever `isNumber` says. */
  predicate SameUser(a: User, b: User)
  {
    a.name == b.name
  }

  predicate IsDigit(c: char)
  {
    '0' <= c <= '9'
  }

  predicate AllDigits(s: string)
  {
    forall i :: 0 <= i < |s| ==> IsDigit(s[i])
  }

  /** Length of the longest run of digits at the start of `t`. */
  function DigitRun(t: string): (n: nat)
    ensures n <= |t|
    ensures forall i :: 0 <= i < n ==> IsDigit(t[i])
    ensures n < |t| ==> !IsDigit(t[n])
  {
    if |t| > 0 && IsDigit(t[0]) then 1 + DigitRun(t[1..]) else 0
  }

  /** The regex engine matching `(\d+)(.(\d+))*` with `remaining` groups
      at the start of `t`: each `\d+` first takes every digit it can and
      gives them back one at a time when the rest of the pattern fails.
      The `.` between groups is any character but a newline. Returns the
      captured groups of the first match found. */
  function MatchGroups(t: string, remaining: nat): (r: Option<seq<string>>)
    requires remaining >= 1
    ensures r.Some? ==> |r.value| == remaining
    ensures r.Some? ==> forall g :: 0 <= g < |r.value| ==> |r.value[g]| > 0 && AllDigits(r.value[g])
    decreases |t|, 1, 0
  {
    var n := DigitRun(t);
    if n == 0 then None else TryRun(t, remaining, n)
  }

  /** Backtracking step: the current group takes the first `len` digits. */
  function TryRun(t: string, remaining: nat, len: nat): (r: Option<seq<string>>)
    requires remaining >= 1
    requires 1 <= len <= DigitRun(t)
    ensures r.Some? ==> |r.value| == remaining
    ensures r.Some? ==> forall g :: 0 <= g < |r.value| ==> |r.value[g]| > 0 && AllDigits(r.value[g])
    decreases |t|, 0, len
  {
    if remaining == 1 then Some([t[..len]])
    else
      var next := if len < |t| && t[len] != '\n' then MatchGroups(t[len + 1..], remaining - 1) else None;
      if next.Some? then Some([t[..len]] + next.value)
      else if len > 1 then TryRun(t, remaining, len - 1)
      else None
  }

  /** `PHONE_NUMBER_REGEX.match(raw).groups()`: one arbitrary leading
      character, a `+` that belongs to the first group, then six digit
      groups. */
  function MatchPhone(raw: string): (r: Option<seq<string>>)
    ensures r.Some? ==> |r.value| == 6 && |r.value[0]| >= 2 && r.value[0][0] == '+'
  {
    if |raw| >= 2 && raw[0] != '\n' && raw[1] == '+' then
      match MatchGroups(raw[2..], 6)
      case Some(groups) => Some(["+" + groups[0]] + groups[1..])
      case None => None
    else None
  }

  /** `User.__init__` (message.py): a label that is not a phone number is
      kept verbatim; a phone number is normalised to its space-joined key,
      replaced by the mapped name when the key is known and kept (flagged
      `isNumber`) otherwise. An unknown number is never an error. */
  function Resolve(raw: string, numbers: map<string, string>): (u: User)
    ensures u.isNumber ==> u.name !in numbers && |u.name| > 0 && u.name[0] == '+'
    ensures !u.isNumber ==> u.name == raw || u.name in numbers.Values
  {
    match MatchPhone(raw)
    case None => User(raw, false)
    case Some(groups) =>
      var key := Join(groups, " ");
      assert key[0] == '+' by { JoinFirst(groups, " "); }
      if key in numbers then User(numbers[key], false) else User(key, true)
  }

  lemma {:induction false} JoinFirst(parts: seq<string>, sep: string)
    requires |parts| > 0 && |parts[0]| > 0
    ensures |Join(parts, sep)| > 0 && Join(parts, sep)[0] == parts[0][0]
  {
  }

  // ---------------------------------------------------------------------
  // Labels whose separators are not digits.

  /** The label `lead + "+" + groups[0] + seps[0] + groups[1] + ... +
      groups[5] + tail`, i.e. digit groups with one separator between
      neighbours. */
  function Interleave(groups: seq<string>, seps: seq<char>): string
    requires |groups| >= 1 && |seps| == |groups| - 1
  {
    if |groups| == 1 then groups[0]
    else groups[0] + [seps[0]] + Interleave(groups[1..], seps[1..])
  }

  /** Digit groups separated by non-digit, non-newline characters, followed
      by a tail that does not continue the last group. */
  predicate WellSeparated(groups: seq<string>, seps: seq<char>, tail: string)
  {
    && |groups| >= 1 && |seps| == |groups| - 1
    && (forall g :: 0 <= g < |groups| ==> |groups[g]| > 0 && AllDigits(groups[g]))
    && (forall k :: 0 <= k < |seps| ==> !IsDigit(seps[k]) && seps[k] != '\n')
    && (|tail| > 0 ==> !IsDigit(tail[0]))
  }

  lemma {:induction false} DigitRunOf(digits: string, after: string)
    requires AllDigits(digits)
    requires |after| > 0 ==> !IsDigit(after[0])
    ensures DigitRun(digits + after) == |digits|
    decreases |digits|
  {
    if |digits| == 0 {
      assert digits + after == after;
    } else {
      assert (digits + after)[1..] == digits[1..] + after;
      DigitRunOf(digits[1..], after);
    }
  }

  /** When the separators are not digits the engine never backtracks: the
      captures are exactly the maximal digit runs. */
  lemma {:induction false} MatchWellSeparated(groups: seq<string>, seps: seq<char>, tail: string)
    requires WellSeparated(groups, seps, tail)
    ensures MatchGroups(Interleave(groups, seps) + tail, |groups|) == Some(groups)
    decreases |groups|
  {
    var t := Interleave(groups, seps) + tail;
    var g0 := groups[0];
    if |groups| == 1 {
      assert t == g0 + tail;
      DigitRunOf(g0, tail);
      assert t[..|g0|] == g0;
      assert groups == [g0];
    } else {
      var rest := Interleave(groups[1..], seps[1..]) + tail;
      assert t == g0 + ([seps[0]] + rest);
      DigitRunOf(g0, [seps[0]] + rest);
      assert t[..|g0|] == g0;
      assert t[|g0|] == seps[0];
      assert t[|g0| + 1..] == rest;
      MatchWellSeparated(groups[1..], seps[1..], tail);
      assert [g0] + groups[1..] == groups;
    }
  }

  /** A label made of a lead character, `+`, six well-separated digit
      groups and a tail is a phone number whose key is its digit groups
      (the first with its `+`) joined by single spaces; it resolves to the
      mapped name when the key is known, and to the key itself, flagged as
      a number, otherwise. */
  lemma {:induction false} ResolvePhoneLabel(lead: char, groups: seq<string>, seps: seq<char>, tail: string,
                          numbers: map<string, string>)
    requires |groups| == 6 && lead != '\n'
    requires WellSeparated(groups, seps, tail)
    ensures var raw := [lead, '+'] + Interleave(groups, seps) + tail;
      var key := Join(["+" + groups[0]] + groups[1..], " ");
      && MatchPhone(raw) == Some(["+" + groups[0]] + groups[1..])
      && Resolve(raw, numbers) == (if key in numbers then User(numbers[key], false) else User(key, true))
  {
    var raw := [lead, '+'] + Interleave(groups, seps) + tail;
    assert raw[2..] == Interleave(groups, seps) + tail;
    MatchWellSeparated(groups, seps, tail);
  }

  /** A label whose second character is not `+` is not a phone number and
      keeps its raw text as the name. */
  lemma {:induction false} ResolveNonPhone(raw: string, numbers: map<string, string>)
    requires |raw| < 2 || raw[1] != '+'
    ensures Resolve(raw, numbers) == User(raw, false)
  {
  }

  // ---------------------------------------------------------------------
  // The matcher against the pattern's meaning.

  /** `groups` are the captures of one way of matching
      `(\d+)(.(\d+))*` at the start of `t`: non-empty digit groups, each
      but the last followed by one character other than a newline. */
  predicate Captures(t: string, groups: seq<string>)
    decreases |groups|
  {
    var n := if |groups| > 0 then |groups[0]| else 0;
    && |groups| >= 1 && n > 0 && AllDigits(groups[0])
    && n <= |t| && t[..n] == groups[0]
    && (|groups| == 1 || (n < |t| && t[n] != '\n' && Captures(t[n + 1..], groups[1..])))
  }

  /** The labels the phone pattern matches: any first character but a
      newline, a `+`, then six digit groups as `Captures` describes. */
  ghost predicate PhoneShaped(raw: string)
  {
    && |raw| >= 2 && raw[0] != '\n' && raw[1] == '+'
    && exists groups :: |groups| == 6 && Captures(raw[2..], groups)
  }

  /** Every match the engine reports is a way of matching the pattern. */
  lemma {:induction false} MatchGroupsSound(t: string, remaining: nat)
    requires remaining >= 1
    requires MatchGroups(t, remaining).Some?
    ensures Captures(t, MatchGroups(t, remaining).value)
    decreases |t|, 1, 0
  {
    TryRunSound(t, remaining, DigitRun(t));
  }

  lemma {:induction false} TryRunSound(t: string, remaining: nat, len: nat)
    requires remaining >= 1
    requires 1 <= len <= DigitRun(t)
    requires TryRun(t, remaining, len).Some?
    ensures Captures(t, TryRun(t, remaining, len).value)
    decreases |t|, 0, len
  {
    var g := t[..len];
    assert AllDigits(g);
    if remaining == 1 {
      assert TryRun(t, remaining, len).value == [g];
    } else {
      var next := if len < |t| && t[len] != '\n' then MatchGroups(t[len + 1..], remaining - 1) else None;
      if next.Some? {
        MatchGroupsSound(t[len + 1..], remaining - 1);
        var gs := [g] + next.value;
        assert TryRun(t, remaining, len).value == gs;
        assert gs[0] == g && gs[1..] == next.value;
      } else {
        TryRunSound(t, remaining, len - 1);
      }
    }
  }

  /** The engine backtracks far enough: whenever the pattern can match,
      the engine reports a match. */
  lemma {:induction false} MatchGroupsComplete(t: string, groups: seq<string>)
    requires Captures(t, groups)
    ensures MatchGroups(t, |groups|).Some?
    decreases |t|, 1, 0
  {
    var n := |groups[0]|;
    forall i | 0 <= i < n ensures IsDigit(t[i]) {
      assert t[i] == t[..n][i] == groups[0][i];
    }
    LongerRun(t, n);
    TryRunComplete(t, groups, DigitRun(t));
  }

  lemma {:induction false} TryRunComplete(t: string, groups: seq<string>, len: nat)
    requires Captures(t, groups)
    requires |groups[0]| <= len <= DigitRun(t)
    ensures TryRun(t, |groups|, len).Some?
    decreases |t|, 0, len
  {
    var n := |groups[0]|;
    if |groups| > 1 {
      var next := if len < |t| && t[len] != '\n' then MatchGroups(t[len + 1..], |groups| - 1) else None;
      if next.None? {
        if len == n {
          MatchGroupsComplete(t[n + 1..], groups[1..]);
          assert false;
        }
        TryRunComplete(t, groups, len - 1);
      }
    }
  }

  /** A digit prefix of length `n` is covered by the maximal digit run. */
  lemma {:induction false} LongerRun(t: string, n: nat)
    requires n <= |t|
    requires forall i :: 0 <= i < n ==> IsDigit(t[i])
    ensures n <= DigitRun(t)
    decreases n
  {
    if n > 0 {
      assert forall i :: 0 <= i < n - 1 ==> t[1..][i] == t[i + 1];
      LongerRun(t[1..], n - 1);
    }
  }

  /** `PHONE_NUMBER_REGEX.match` succeeds exactly on phone-shaped labels,
      and then its groups are captures of the label (the first with its
      `+` prefixed). */
  lemma {:induction false} MatchPhoneShape(raw: string)
    ensures MatchPhone(raw).Some? <==> PhoneShaped(raw)
    ensures MatchPhone(raw).Some? ==> exists groups ::
      |groups| == 6 && Captures(raw[2..], groups) && MatchPhone(raw).value == ["+" + groups[0]] + groups[1..]
  {
    if |raw| >= 2 && raw[0] != '\n' && raw[1] == '+' {
      if MatchGroups(raw[2..], 6).Some? {
        var groups := MatchGroups(raw[2..], 6).value;
        MatchGroupsSound(raw[2..], 6);
        assert |groups| == 6 && Captures(raw[2..], groups);
      }
      if PhoneShaped(raw) {
        var groups :| |groups| == 6 && Captures(raw[2..], groups);
        MatchGroupsComplete(raw[2..], groups);
      }
    }
  }

  /** A label the phone pattern does not match keeps its raw text as the
      name and is not a number. */
  lemma {:induction false} ResolveNotPhoneShaped(raw: string, numbers: map<string, string>)
    requires !PhoneShaped(raw)
    ensures Resolve(raw, numbers) == User(raw, false)
  {
    MatchPhoneShape(raw);
  }

  /** Each capture takes at least one character, and so does each
      separator between neighbouring captures. */
  lemma {:induction false} CapturesLength(t: string, groups: seq<string>)
    requires Captures(t, groups)
    ensures |t| >= 2 * |groups| - 1
    decreases |groups|
  {
    if |groups| > 1 {
      CapturesLength(t[|groups[0]| + 1..], groups[1..]);
    }
  }

  /** A label of fewer than 13 characters cannot hold a lead character,
      a `+` and six digit groups with their separators, so it keeps its
      raw text: `x+1 2 3` is a plain name, not a number. */
  lemma {:induction false} ShortLabelKept(raw: string, numbers: map<string, string>)
    requires |raw| < 13
    ensures Resolve(raw, numbers) == User(raw, false)
  {
    if PhoneShaped(raw) {
      var groups :| |groups| == 6 && Captures(raw[2..], groups);
      CapturesLength(raw[2..], groups);
    }
    ResolveNotPhoneShaped(raw, numbers);
  }

  /** A phone-shaped label unknown to the map and a plain label spelling
      its key resolve to the same user, one flagged as a number and the
      other not: messages from both end up in one group. */
  lemma {:induction false} NumberAndPlainLabelCoincide()
    ensures var a := Resolve("x+1 2 3 4 5 6", map[]);
      var b := Resolve("+1 2 3 4 5 6", map[]);
      SameUser(a, b) && a.isNumber && !b.isNumber
  {
    UnknownNumberExample();
    ResolveNonPhone("+1 2 3 4 5 6", map[]);
  }

  lemma {:induction false} UnknownNumberExample()
    ensures Resolve("x+1 2 3 4 5 6", map[]) == User("+1 2 3 4 5 6", true)
  {
    var groups := ["1", "2", "3", "4", "5", "6"];
    var seps := [' ', ' ', ' ', ' ', ' '];
    SixLabel(groups, seps);
    SixKey(groups);
    SixSeparated(groups, seps);
    ResolvePhoneLabel('x', groups, seps, "", map[]);
  }

  lemma {:induction false} SixLabel(groups: seq<string>, seps: seq<char>)
    requires groups == ["1", "2", "3", "4", "5", "6"] && seps == [' ', ' ', ' ', ' ', ' ']
    ensures ['x', '+'] + Interleave(groups, seps) + "" == "x+1 2 3 4 5 6"
  {
    InterleaveSix(groups, seps);
  }

  lemma {:induction false} SixKey(groups: seq<string>)
    requires groups == ["1", "2", "3", "4", "5", "6"]
    ensures Join(["+" + groups[0]] + groups[1..], " ") == "+1 2 3 4 5 6"
  {
    var key := ["+1", "2", "3", "4", "5", "6"];
    assert "+" + groups[0] == "+1";
    assert ["+" + groups[0]] + groups[1..] == key;
    JoinSix(key);
  }

  lemma {:induction false} InterleaveSix(groups: seq<string>, seps: seq<char>)
    requires groups == ["1", "2", "3", "4", "5", "6"] && seps == [' ', ' ', ' ', ' ', ' ']
    ensures Interleave(groups, seps) == "1 2 3 4 5 6"
  {
    assert Interleave(groups[5..], seps[5..]) == "6";
    assert Interleave(groups[4..], seps[4..]) == "5 6";
    assert Interleave(groups[3..], seps[3..]) == "4 5 6";
    assert Interleave(groups[2..], seps[2..]) == "3 4 5 6";
    assert Interleave(groups[1..], seps[1..]) == "2 3 4 5 6";
  }

  lemma {:induction false} SixSeparated(groups: seq<string>, seps: seq<char>)
    requires groups == ["1", "2", "3", "4", "5", "6"] && seps == [' ', ' ', ' ', ' ', ' ']
    ensures WellSeparated(groups, seps, "")
  {
    forall g | 0 <= g < |groups| ensures |groups[g]| > 0 && AllDigits(groups[g]) {
      assert |groups[g]| == 1;
      assert IsDigit(groups[g][0]);
    }
  }

  lemma {:induction false} JoinSix(key: seq<string>)
    requires key == ["+1", "2", "3", "4", "5", "6"]
    ensures Join(key, " ") == "+1 2 3 4 5 6"
  {
    assert Join(key[5..], " ") == "6";
    assert Join(key[4..], " ") == "5 6";
    assert Join(key[3..], " ") == "4 5 6";
    assert Join(key[2..], " ") == "3 4 5 6";
    assert Join(key[1..], " ") == "2 3 4 5 6";
  }
}
